=== FILE: README.md ===
# Business card scanner — a Dafny model

The system is a small Django application. It takes a photograph of a
business card, asks a vision model to read the card, and turns the model's
text reply into card records. It then appends each record as a row of a
Google spreadsheet and returns the records to a browser client. The client
is written to show them in a table and to offer each one as a vCard
download.

As written, the client and the view do not meet. The client posts its files
under the form key `images` (src/static/js/card-scanner.js:88), but the view
reads `image` (src/cards/views.py:24) and answers 400 "No image provided".
The client then throws on the non-OK status. Even a 200 reply would not be
tabled as intended: the view answers `{success, data}`
(src/cards/views.py:59-62), while the client looks for `data.results`
(src/static/js/card-scanner.js:377). It finds none and shows the whole
reply as one contact, with '-' in every cell. The model states each half
as its code behaves and does not connect them.

This project models the logic that sits between those services:

- `cards_openai_helper.dfy` models `extract_card_details` in
  `src/cards/utils/openai_helper.py`, the variant the view imports. It
  strips a markdown fence by taking the bracket span, parses the reply,
  wraps a single object in a list, and checks the required fields by
  truthiness.
- `utils_openai_helper.dfy` models the second `extract_card_details`, in
  `src/utils/openai_helper.py`. It rejects an empty reply, cuts from the
  first newline to the last fence, strips whitespace, and checks the
  required fields by key presence.
- `sheets_helper.dfy` models the sheet's column labels and the row built
  for a card. The spreadsheet itself is a class holding the grid, with the
  operations `initialize_sheet`, `append_to_sheet` and `get_sheet_data`.
- `views.dfy` models `analyze_card`: its status and error outcomes, and its
  loop that stamps each card and appends it to the sheet.
- `models.dfy` models `VisitingCard.__str__` and `VisitingCard.to_dict`.
- `card_scanner.dfy` models the browser client:
  - `generateVCard`, which writes vCard 3.0 text (RFC 2426);
  - in `displayResults`, the normalisation of the results list, the
    skipping of error entries, the table cells and links, and the index
    check of the bulk download;
  - the image filter of `handleFiles`.
- `json_value.dfy` holds the Python values that JSON parsing yields, with
  Python truthiness and type names.
- `strings.dfy` holds the string operations the code uses: the prefix test
  (Python's `startswith`, JavaScript's `startsWith`), and Python's `find`,
  `rfind`, slicing and `strip`.
- `wrappers.dfy` holds `Option` and `Result`.

Several things outside the program are inputs to the model:

- `json.loads` is a function parameter `parse` that returns a value or a
  decode error with its text. No JSON parser is modelled.
- The vision model's reply, or the text of the exception it raised, is an
  input. The reply is the message content, which may be `None`.
- The clock is the parameter `clock(k)`, the timestamp text taken for the
  k-th card.
- The outcome of each spreadsheet call is an input: `available`, or
  `sinkUp(k)` for the k-th card's append.
- Which previews the browser's file reader loads is the parameter
  `loaded(i)`.

## Model

| member | source | states |
|---|---|---|
| Strings.StartsWithOccurs | src/cards/utils/openai_helper.py:85 | `s.startswith(p)` holds exactly when `p` occurs at index 0, so the first characters of `s` are those of `p`; the empty prefix always matches |
| Strings.Find | src/cards/utils/openai_helper.py:87-89 | `s.find(c)`: the first index holding `c`; -1 exactly when `c` does not occur |
| Strings.RFind | src/cards/utils/openai_helper.py:91-93 | `s.rfind(c)`: the last index holding `c`; -1 exactly when `c` does not occur |
| Strings.RFindSub | src/utils/openai_helper.py:87 | `s.rfind(t)`: an index where `t` occurs with no later occurrence, or -1 |
| Strings.Slice | src/cards/utils/openai_helper.py:99 | `s[a:b]`: the substring when `0 <= a <= b <= len(s)`, and '' when the bounds are reversed |
| Strings.Strip | src/utils/openai_helper.py:88 | `strip()`: never longer than its input; no whitespace at either end |
| Strings.StripSurrounded | src/utils/openai_helper.py:88 | whitespace of any length around a text with no outer whitespace is removed, and nothing else is |
| JsonValue.GetOr | src/cards/utils/sheets_helper.py:66-73 | `d.get(key, default)`: the stored value when the key is present, the default otherwise |
| JsonValue.TruthyFacts | src/cards/utils/openai_helper.py:113 | Python truthiness: None is falsy; a string exactly when non-empty, an int exactly when non-zero, a list or dict exactly when non-empty |
| CardsOpenAiHelper.Message | src/cards/utils/openai_helper.py:95-125 | `str(e)`: "Could not find valid JSON content in response"; "Failed to parse API response: " followed by the decoder's text; a type error's own text |
| CardsOpenAiHelper.OpenIndex | src/cards/utils/openai_helper.py:87-89 | -1 exactly when there is neither '[' nor '{'; otherwise the first '[', or the first '{' when there is no '[' |
| CardsOpenAiHelper.CloseIndex | src/cards/utils/openai_helper.py:91-93 | -1 exactly when there is neither ']' nor '}'; otherwise the last ']', or the last '}' when there is no ']' |
| CardsOpenAiHelper.CleanResponse | src/cards/utils/openai_helper.py:84-99 | an unfenced reply is passed on unchanged, with no trimming; the error "Could not find valid JSON content" happens exactly when a fenced reply lacks both '[' and '{', or both ']' and '}' |
| CardsOpenAiHelper.MissingFields | src/cards/utils/openai_helper.py:111-113 | a field is listed exactly when it is one of name/business_name/contact_number and is absent or falsy; no field is listed twice |
| CardsOpenAiHelper.CheckItems | src/cards/utils/openai_helper.py:112-113 | the check succeeds exactly when every element is a dict; it gives one missing-field list per card, in order; otherwise the error is the AttributeError text for the type of the first non-dict element |
| CardsOpenAiHelper.Validate | src/cards/utils/openai_helper.py:112-115 | a list passes exactly when all its elements are dicts, with one missing-field list each; among the rest only '' and {} pass (they iterate zero times); another string or dict fails with "'str' object has no attribute 'get'"; a number, bool or None fails with "'…' object is not iterable" |
| CardsOpenAiHelper.WrapObject | src/cards/utils/openai_helper.py:107-108 | a dict becomes a one-element list; anything else is kept |
| CardsOpenAiHelper.ExtractCardDetails | src/cards/utils/openai_helper.py:77-125 | a successful result is a list of dicts, or the JSON string "" (which iterates zero times); a list result has one missing-field list per card |
| CardsOpenAiHelper.ExtractReply | src/cards/utils/openai_helper.py:82-125 | a `None` reply fails at `startswith` with "'NoneType' object has no attribute 'startswith'"; a text reply is extracted |
| CardsOpenAiHelper.FencedSpan | src/cards/utils/openai_helper.py:87-99 | a fenced reply is cut from the first '[' (the first '{' when there is no '[') through the last ']' (the last '}' when there is no ']'), both ends included |
| CardsOpenAiHelper.FenceTransparentArray | src/cards/utils/openai_helper.py:85-99 | fence, tag, array payload and trailer: when tag and trailer hold no brackets or braces, the payload comes out unchanged |
| CardsOpenAiHelper.FenceTransparentObject | src/cards/utils/openai_helper.py:85-99 | the same for an object payload that holds no '[' or ']' |
| CardsOpenAiHelper.FencedObjectCutToArray | src/cards/utils/openai_helper.py:87-99 | an object payload holding a list is cut down to start at the list's '[', because '[' is preferred |
| CardsOpenAiHelper.UnfencedParsedAsIs | src/cards/utils/openai_helper.py:85-108 | an unfenced reply reaches the parser as it is; a decode error surfaces as ParseFailure with its text; a parsed dict comes back as a one-element list |
| CardsOpenAiHelper.DictWrapped | src/cards/utils/openai_helper.py:84-118 | fenced or not, a reply whose cleaned text parses to a dict comes back as that dict in a one-element list, with its missing-field list |
| CardsOpenAiHelper.FencedWithoutBracketsFails | src/cards/utils/openai_helper.py:95-96 | a fenced reply without an opening or a closing bracket fails before any parse, with the "Could not find valid JSON content in response" text |
| CardsOpenAiHelper.ParseFailureMessage | src/cards/utils/openai_helper.py:104-122 | a parse failure's message is "Failed to parse API response: " followed by the decoder's text |
| CardsOpenAiHelper.EmptyResponseFailsToParse | src/cards/utils/openai_helper.py:104-122 | the empty reply is not fenced, so it fails in the parser with that prefix |
| CardsOpenAiHelper.ListKeptAndFlagged | src/cards/utils/openai_helper.py:107-118 | a parsed list of dicts is returned unchanged, with no card dropped or altered; a card is flagged exactly when a required field is absent or falsy |
| CardsOpenAiHelper.NonDictElementFails | src/cards/utils/openai_helper.py:112-125 | a list with a non-dict element makes the extraction fail with a type error |
| UtilsOpenAiHelper.Message | src/utils/openai_helper.py:79-113 | `str(e)`: "Empty response received"; "Failed to parse API response: " followed by the decoder's text; a type error's own text |
| UtilsOpenAiHelper.CleanResponse | src/utils/openai_helper.py:83-88 | an unfenced reply is passed on unchanged; a fenced one comes out at least three characters shorter |
| UtilsOpenAiHelper.OneLineKeepsOpeningFence | src/utils/openai_helper.py:84-88 | a fenced reply with no newline is cut from index 0, so it keeps its opening fence: fence + p + fence cleans to strip(fence + p), which still starts with the fence |
| UtilsOpenAiHelper.MissingWhere | src/utils/openai_helper.py:96 | a required key is listed exactly when the membership test fails for it |
| UtilsOpenAiHelper.MissingKeys | src/utils/openai_helper.py:94-96 | a required key is listed exactly when it is absent from the dict, whatever the values |
| UtilsOpenAiHelper.CheckCard | src/utils/openai_helper.py:95-98 | a dict yields the keys it lacks, whatever the values; a value other than a dict, list or string fails with "argument of type '…' is not iterable" |
| UtilsOpenAiHelper.ListCardChecked | src/utils/openai_helper.py:95-98 | a list card passes exactly when it holds the three key names as elements; otherwise the warning's `card.get` fails with "'list' object has no attribute 'get'" |
| UtilsOpenAiHelper.StringCardChecked | src/utils/openai_helper.py:95-98 | a string card passes exactly when it holds the three key names as substrings; otherwise "'str' object has no attribute 'get'" |
| UtilsOpenAiHelper.CheckAll | src/utils/openai_helper.py:95-98 | one result per card, in order; the loop fails exactly when some card's round fails, and then with the error of the first failing card |
| UtilsOpenAiHelper.ExtractCardDetails | src/utils/openai_helper.py:72-113 | an empty reply fails with "Empty response received" before any parse; a decode error surfaces as ParseFailure with its text; a success means the cleaned text parsed; a successful result is a list, or a string exactly as parsed; a parsed list is returned unchanged |
| UtilsOpenAiHelper.ExtractReply | src/utils/openai_helper.py:79-80 | a `None` reply is falsy and fails as an empty one does; a text reply is extracted |
| UtilsOpenAiHelper.DictWrapped | src/utils/openai_helper.py:79-103 | fenced or not, a non-empty reply whose cleaned text parses to a dict comes back as that dict in a one-element list, with the keys it lacks |
| UtilsOpenAiHelper.FencedSpan | src/utils/openai_helper.py:84-88 | a fenced reply is cut from just after its first newline (from index 0 when it has none) up to the last fence, then stripped |
| UtilsOpenAiHelper.FenceRoundTrip | src/utils/openai_helper.py:86-88 | fence, newline-free tag, newline, payload, fence: the payload comes back stripped |
| UtilsOpenAiHelper.LoneFenceCleansToEmpty | src/utils/openai_helper.py:86-88 | when the opening fence is the only fence, the cleaned text is empty |
| UtilsOpenAiHelper.LoneFenceFails | src/utils/openai_helper.py:86-110 | such a reply fails as `json.loads("")` does, with a ParseFailure |
| UtilsOpenAiHelper.CleanedEmptyFails | src/utils/openai_helper.py:91-110 | any non-empty reply that cleans to '' fails with the parser's error on '' |
| UtilsOpenAiHelper.UnfencedParsedAsIs | src/utils/openai_helper.py:83-106 | a non-empty unfenced reply reaches the parser unchanged; a decode error surfaces as ParseFailure; a dict comes back as a one-element list |
| UtilsOpenAiHelper.PassingListKept | src/utils/openai_helper.py:94-106 | a parsed list succeeds exactly when every card passes the loop, and then comes back unchanged whatever its elements, with one result per card; otherwise the first failing card's error is raised |
| UtilsOpenAiHelper.ListOfDictsKept | src/utils/openai_helper.py:94-106 | a parsed list of dicts is returned unchanged; each card's missing list holds exactly the keys it lacks |
| UtilsOpenAiHelper.PresentKeysNotFlagged | src/utils/openai_helper.py:94-96 | a dict holding all three keys is not flagged, even when the values are empty |
| SheetsHelper.HeaderRow | src/cards/utils/sheets_helper.py:11-20 | the header is exactly the eight labels Name … Created At, in order |
| SheetsHelper.BuildRow | src/cards/utils/sheets_helper.py:65-74 | eight cells in column order from name … created_at; '' for an absent key; a present null is passed through |
| SheetsHelper.Take | src/cards/utils/sheets_helper.py:98 | a read of A:H returns the first eight cells of a row |
| SheetsHelper.EnsureHeader | src/cards/utils/sheets_helper.py:41-53 | the labels are written only when the A1:H1 range is empty; any other first row, even a different one, is kept |
| SheetsHelper.EnsureHeaderIdempotent | src/cards/utils/sheets_helper.py:41-53 | initialising a second time changes nothing more |
| SheetsHelper.HeaderRangeFacts | src/cards/utils/sheets_helper.py:41-47 | an empty sheet or an empty first row has no headers; a non-blank A1 means headers exist; cells past H1 are not looked at |
| SheetsHelper.ReadRange | src/cards/utils/sheets_helper.py:96-99 | the A:H read returns every row cut to eight cells |
| SheetsHelper.Pad | src/cards/utils/sheets_helper.py:108 | the row is kept as a prefix and padded with '' up to the header width |
| SheetsHelper.ZipDict | src/cards/utils/sheets_helper.py:109 | the keys are those paired up to the shorter list |
| SheetsHelper.ZipDictAt | src/cards/utils/sheets_helper.py:109 | with distinct keys, each key maps to the value at its own position |
| SheetsHelper.Records | src/cards/utils/sheets_helper.py:101-111 | an empty sheet reads as []; otherwise there is one record per row after the header |
| SheetsHelper.RecordIs | src/cards/utils/sheets_helper.py:105-109 | record i is the header zipped with row i, padded to the header's width |
| SheetsHelper.RecordAt | src/cards/utils/sheets_helper.py:105-111 | with distinct header cells, record i maps the k-th header cell to row i's k-th cell, or '' where the row is short |
| SheetsHelper.RecordKeys | src/cards/utils/sheets_helper.py:105-109 | a record's keys are exactly the header cells; cells past the header width are dropped |
| SheetsHelper.HeaderDistinct | src/cards/utils/sheets_helper.py:11-20 | the eight labels are distinct |
| SheetsHelper.AppendedRowReadsBack | src/cards/utils/sheets_helper.py:65-109 | round trip: under the standard header, an appended card reads back as the last record, mapping each label to the card's field or ''; earlier records are unchanged |
| SheetsHelper.Spreadsheet.InitializeSheet | src/cards/utils/sheets_helper.py:35-57 | the grid becomes EnsureHeader of the old grid when the API is reachable, and is unchanged otherwise |
| SheetsHelper.Spreadsheet.AppendToSheet | src/cards/utils/sheets_helper.py:59-89 | exactly one row, the card's, is added after the existing rows, which stay unchanged |
| SheetsHelper.Spreadsheet.GetSheetData | src/cards/utils/sheets_helper.py:91-115 | the loop's records are exactly Records(grid) |
| Views.HasImage | src/cards/views.py:24-27 | no upload, or an upload whose name is empty (a falsy Django `File`), counts as no image |
| Views.StampAll | src/cards/views.py:45-46 | every card keeps its other fields and gains created_at, the timestamp taken for it |
| Views.SinkRows | src/cards/views.py:47-53 | the sheet never gains more rows than there are cards |
| Views.AnalyzeCard | src/cards/views.py:16-66 | a non-POST request gives 400 "Invalid request method"; a missing image gives 400 "No image provided"; an analysis failure gives 500 "Image analysis failed: …"; an extraction failure, including a `None` reply, gives 500 "Failed to extract card details: …"; the sheet is untouched in all four cases; otherwise the response is 200 {success, data} with every card stamped, in order, and the sheet gains the rows of the appends that succeeded |
| Views.StampAndAppend | src/cards/views.py:44-53 | each card is stamped, then appended once, in extractor order; a failed append is swallowed and the loop goes on |
| Views.SinkRowsFromCards | src/cards/views.py:45-53 | every row the sheet gains is the row of a stamped card whose append succeeded |
| Views.SinkRowsAllUp | src/cards/views.py:44-53 | when every append succeeds, the sheet gains exactly the cards' rows, in order |
| Views.SinkRowsCount | src/cards/views.py:48-53 | the number of rows gained equals the number of successful appends |
| Views.UpIndicesExact | src/cards/views.py:47-53 | the positions of the successful appends are exactly the cards whose append succeeded, in increasing order |
| Views.SinkRowsInOrder | src/cards/views.py:44-53 | whichever appends fail, the sheet gains one row per successful append, in card order: the j-th new row is the row of the j-th card whose append succeeded |
| Views.StampedRowTimestamp | src/cards/views.py:45-49 | created_at is set before the append, so the row's Created At cell is the card's timestamp; the other seven cells are unaffected |
| Models.OrEmpty | src/cards/models.py:26-30 | None becomes ''; a value is kept |
| Models.Str | src/cards/models.py:18-19 | `__str__` is the name, " - ", then the business name |
| Models.ToDict | src/cards/models.py:21-32 | eight entries whose labels are the sheet's column labels, in order |
| Models.ToDictMatchesSheetRow | src/cards/models.py:23-31 | column by column, `to_dict` agrees with the sheet row of the same card: required fields copied, None optional fields as '', Created At as the formatted timestamp |
| Models.ToDictKeys | src/cards/models.py:23-32 | the eight labels are distinct and equal to SHEET_COLUMNS |
| CardScanner.TruthyFacts | src/static/js/card-scanner.js:433-463 | JavaScript truthiness: null and undefined are falsy, every array and object is truthy even when empty, a string exactly when non-empty, a number exactly when non-zero |
| CardScanner.Prop | src/static/js/card-scanner.js:433 | a property read gives the stored value, or undefined when the key is absent or the value is not an object |
| CardScanner.NatText | src/static/js/card-scanner.js:511 | the decimal text of a count: non-empty, all digits, no leading zero unless the count is 0 (then it is exactly "0"), and it denotes the count |
| CardScanner.ToText | src/static/js/card-scanner.js:463-479 | `String(v)`: "undefined", "null", "true", "false"; a string is itself; a number is its decimal text (NatText), after '-' when negative; an array is its elements' texts joined by ",", '' standing for a null or undefined element, so an empty array gives ''; an object gives "[object Object]" |
| CardScanner.SingletonArrayText | src/static/js/card-scanner.js:463-479 | a one-element array reads as its element, or '' when that is null or undefined |
| CardScanner.PairArrayText | src/static/js/card-scanner.js:463-479 | a two-element array reads as the two texts joined by one comma, with no space |
| CardScanner.NumberText | src/static/js/card-scanner.js:463-479 | a number's text is an optional '-' then decimal digits that denote its magnitude, with no leading zero except for 0 itself |
| CardScanner.GenerateVCard | src/static/js/card-scanner.js:595-611 | the card text starts with "BEGIN:VCARD", CR LF, "VERSION:3.0", CR LF, and ends with CR LF, "END:VCARD", with no separator after it |
| CardScanner.VCardFrame | src/static/js/card-scanner.js:596-610 | the filtered list has at least five lines, starting with BEGIN:VCARD and VERSION:3.0 and ending with END:VCARD |
| CardScanner.FramedJoin | src/static/js/card-scanner.js:610 | a CR LF join of lines framed that way starts and ends with those lines |
| CardScanner.JoinFirstTwo | src/static/js/card-scanner.js:610 | `join` of three or more lines starts with the first two, each followed by the separator |
| CardScanner.JoinEndsWith | src/static/js/card-scanner.js:610 | `join` of two or more lines ends with the separator and the last line |
| CardScanner.JoinLast | src/static/js/card-scanner.js:610 | `join` of two or more lines is the join of all but the last, the separator, then the last |
| CardScanner.VCardLineList | src/static/js/card-scanner.js:596-608 | the line list has eleven entries |
| CardScanner.NonEmptyEleven | src/static/js/card-scanner.js:610 | filtering the list keeps each non-empty entry, in place |
| CardScanner.NonEmptyMembers | src/static/js/card-scanner.js:610 | the filter keeps exactly the lines that are not '' and no others; a list without '' comes through whole |
| CardScanner.KeepOptional | src/static/js/card-scanner.js:601-605 | an optional line survives the filter exactly when its field is truthy |
| CardScanner.VCardLines | src/static/js/card-scanner.js:595-611 | the lines are BEGIN:VCARD, VERSION:3.0, FN and N (name or '', N ending ";;;"), then EMAIL, TEL, ORG, TITLE, URL and ADR (";;" + address + ";;;") in that order, each present exactly when its field is truthy and holding the value verbatim, then END:VCARD |
| CardScanner.VCardLineCount | src/static/js/card-scanner.js:596-610 | the card has 5 lines plus one per truthy optional field |
| CardScanner.FirstCrlf | src/static/js/card-scanner.js:610 | the first CR LF pair at or after a position, or -1 |
| CardScanner.SplitJoin | src/static/js/card-scanner.js:610 | splitting a CRLF join of CR-free lines at CR LF gives the lines back |
| CardScanner.VCardSplitsIntoLines | src/static/js/card-scanner.js:595-611 | a reader splitting the vCard at CR LF gets exactly the expected property lines (no trailing separator); they begin with BEGIN:VCARD, VERSION:3.0 and end with END:VCARD |
| CardScanner.ResultsArray | src/static/js/card-scanner.js:377-431 | `data.results` when it is a truthy array, `[data]` when it is falsy; a TypeError for null/undefined data or a truthy non-array `results` |
| CardScanner.FieldCell | src/static/js/card-scanner.js:463-483 | a falsy field renders '-'; phone links to "tel:"+v, email to "mailto:"+v, a string website to v if it starts with "http", else "http://"+v; a truthy non-string website throws a TypeError; any other truthy field shows its text |
| CardScanner.RowCells | src/static/js/card-scanner.js:452-483 | the seven cells in column order, each the field's own cell; the row fails exactly when the website cell fails |
| CardScanner.OnlyWebsiteFails | src/static/js/card-scanner.js:463-483 | every cell other than the website's always renders |
| CardScanner.ErrorEntryFacts | src/static/js/card-scanner.js:433 | an entry is skipped exactly when it is an object whose `error` property is present and truthy |
| CardScanner.ValidContacts | src/static/js/card-scanner.js:431-438 | the contacts shown are never more than the entries |
| CardScanner.RenderRows | src/static/js/card-scanner.js:431-486 | it fails exactly when some entry is null/undefined, or is not an error entry and cannot render; the contacts are the non-error entries in order; each row's checkbox index is its contact's position in the list, increasing; every non-error entry has a row carrying its position |
| CardScanner.DisplayResults | src/static/js/card-scanner.js:368-511 | the normalised list, the shown contacts, their rows, and the heading "<count> Contacts Found" with the number of shown contacts |
| CardScanner.ValidContactsAreNonErrors | src/static/js/card-scanner.js:431-438 | every shown contact is a non-error entry of the list, and every non-error entry is shown |
| CardScanner.NoErrorsAllShown | src/static/js/card-scanner.js:431-438 | with no error entries, every entry is shown, in order |
| CardScanner.InRange | src/static/js/card-scanner.js:531-535 | no more indices than checked boxes, each inside the results list |
| CardScanner.InRangeExact | src/static/js/card-scanner.js:531-535 | an index is used exactly when some checked box parsed to it (not NaN) and it lies in [0, length of the results list) |
| CardScanner.BulkDownload | src/static/js/card-scanner.js:522-535 | nothing is downloaded when no box is checked; otherwise the indices used are the valid ones, in checkbox order |
| CardScanner.ImageIndices | src/static/js/card-scanner.js:155-158 | no more previews than files |
| CardScanner.ContainsOccurs | src/static/js/card-scanner.js:156 | the pattern is contained exactly when it occurs at some index |
| CardScanner.ImageTypeOccurs | src/static/js/card-scanner.js:156 | a type passes `match('image.*')` exactly when "image" occurs somewhere in it |
| CardScanner.ImageIndicesExact | src/static/js/card-scanner.js:155-158 | a file gets a preview exactly when its type contains "image", the unanchored match of `'image.*'` |
| CardScanner.ImageIndicesIncreasing | src/static/js/card-scanner.js:155-188 | the previews are made in file order, each for a file of the list |
| CardScanner.LoadedCountBound | src/static/js/card-scanner.js:160-188 | no more previews load than were started |
| CardScanner.HandleFiles | src/static/js/card-scanner.js:106-190 | the image files are the ones previewed, in order; `processed` counts the successful loads and never exceeds the previews |

## Left out

- The calls to outside services are not modelled: `analyze_image`, `encode_image` and `get_sheets_service`. Their results are inputs, as listed above. An analysis failure is represented by its exception text.
- `json.loads` is the parameter `parse`. Its decode error text is whatever that parameter returns.
- SheetsHelper.AppendedRowReadsBack: the model assumes that the Sheets API hands each cell back as it was sent. The real read uses the default FORMATTED_VALUE rendering, so a number comes back as its formatted text and a null cell as ''. The round trip therefore matches the real sheet only for string fields. How the API trims trailing empty cells and trailing empty rows is not modelled either. A trailing empty row is kept in the model, so `Records` can hold one more record than the real read returns.
- The model records only the sheet's A:H columns.
- Python dicts are maps, so key order is not modelled. `to_dict` is an ordered list of label/text pairs.
- The outer `except` of `analyze_card` (src/cards/views.py:64-66) is not modelled. It can be reached only from code this model does not include, such as Django's file access.
- `timezone.now()` and `strftime` are not modelled. Timestamps come from the `clock` and `format` parameters.
- Logging, settings, the ORM, `Meta.ordering`, the Django app configuration and the URL routing are not modelled.
- JavaScript numbers are integers in this model. Fractions, NaN and exponent-form text are not modelled.
- `Prop` reads no built-in properties of arrays or strings. The client reads only data keys.
- The DOM is not modelled: element creation, styles, event wiring, `fetch`, CSRF and Blob downloads are absent.
- `link.href` is the assigned string; the browser's URL resolution is not applied.
- The heading of `displayResults` assumes that `contactDetails` exists.
- `FileReader` completions happen asynchronously in the browser. The model fixes their outcome up front with `loaded(i)`; the order in which previews are appended is not modelled.
- CardScanner.GenerateVCard: the CRLF round trip is stated for field values that hold no carriage return, because the source does no escaping or folding.
- CardsOpenAiHelper.ExtractCardDetails: its own contract states only the shape of a success. The error cases are stated by the lemmas beside it.
- Views.SinkRows: its own contract gives only the bound on the row count. The rows themselves, and their order when some appends fail, are stated by SinkRowsInOrder, SinkRowsFromCards, SinkRowsAllUp and SinkRowsCount.

=== FILE: card_scanner.dfy ===
/**
 * The decisions inside src/static/js/card-scanner.js: `generateVCard`
 * (vCard 3.0 text, RFC 2426), the normalisation, error skipping and cell
 * links of `displayResults`, the index check of its bulk download, and the
 * file filter of `handleFiles`. JavaScript values are `JsVal`; the DOM is
 * not modelled.
 */
module CardScanner {
  import opened Wrappers
  import opened Strings

  /** JavaScript values; numbers are restricted to integers. */
  datatype JsVal =
    | JsUndefined
    | JsNull
    | JsBool(b: bool)
    | JsNum(n: int)
    | JsStr(s: string)
    | JsArray(items: seq<JsVal>)
    | JsObject(props: map<string, JsVal>)

  /** A TypeError thrown by the client code. */
  datatype TypeError = TypeError

  predicate Nullish(v: JsVal)
  {
    v.JsUndefined? || v.JsNull?
  }

  /** JavaScript truthiness. */
  predicate Truthy(v: JsVal)
  {
    match v
    case JsUndefined => false
    case JsNull => false
    case JsBool(b) => b
    case JsNum(n) => n != 0
    case JsStr(s) => s != ""
    case JsArray(_) => true
    case JsObject(_) => true
  }

  /** Unlike Python's, JavaScript truthiness holds for an empty array or object; '' and the nullish values are falsy. */
  lemma TruthyFacts(v: JsVal)
    ensures Nullish(v) ==> !Truthy(v)
    ensures v.JsArray? || v.JsObject? ==> Truthy(v)
    ensures v.JsStr? ==> (Truthy(v) <==> v.s != "")
    ensures v.JsNum? ==> (Truthy(v) <==> v.n != 0)
  {
  }

  /** `v[key]` for the data keys the client reads, on a value that is not null or undefined. */
  function Prop(v: JsVal, key: string): (r: JsVal)
    requires !Nullish(v)
    ensures v.JsObject? && key in v.props ==> r == v.props[key]
    ensures !(v.JsObject? && key in v.props) ==> r == JsUndefined
  {
    if v.JsObject? && key in v.props then v.props[key] else JsUndefined
  }

  function DigitChar(d: nat): (c: char)
    requires d < 10
    ensures '0' <= c <= '9' && c as int - '0' as int == d
  {
    "0123456789"[d]
  }

  /** The number a string of decimal digits denotes. */
  function DigitsValue(t: string): int
  {
    if t == [] then 0 else DigitsValue(t[..|t| - 1]) * 10 + (t[|t| - 1] as int - '0' as int)
  }

  /** The decimal text of a natural number: digits only, no leading zero, denoting `n`. */
  function NatText(n: nat): (t: string)
    ensures |t| >= 1
    ensures forall k :: 0 <= k < |t| ==> '0' <= t[k] <= '9'
    ensures DigitsValue(t) == n
    ensures n >= 1 ==> t[0] != '0'
    ensures |t| > 1 ==> t[0] != '0'
  {
    if n < 10 then
      assert [DigitChar(n)][..0] == [];
      [DigitChar(n)]
    else
      var front := NatText(n / 10);
      var t := front + [DigitChar(n % 10)];
      assert t[..|t| - 1] == front;
      t
  }

  /** `lines.join(sep)`. */
  function Join(lines: seq<string>, sep: string): string
  {
    if lines == [] then ""
    else if |lines| == 1 then lines[0]
    else lines[0] + sep + Join(lines[1..], sep)
  }

  /** `String(v)`, which template literals and `+` apply. */
  function ToText(v: JsVal): (r: string)
    ensures v.JsUndefined? ==> r == "undefined"
    ensures v.JsNull? ==> r == "null"
    ensures v.JsBool? ==> r == (if v.b then "true" else "false")
    ensures v.JsStr? ==> r == v.s
    ensures v.JsNum? && v.n >= 0 ==> r == NatText(v.n)
    ensures v.JsNum? && v.n < 0 ==> r == "-" + NatText(-v.n)
    ensures v.JsArray? && v.items == [] ==> r == ""
    ensures v.JsArray? ==> r == Join(ItemTexts(v, 0), ",")
    ensures v.JsObject? ==> r == "[object Object]"
    decreases v, if v.JsArray? then |v.items| + 1 else 0
  {
    match v
    case JsUndefined => "undefined"
    case JsNull => "null"
    case JsBool(b) => if b then "true" else "false"
    case JsNum(n) =>
      if n < 0 then "-" + NatText(-n) else NatText(n)
    case JsStr(s) => s
    case JsArray(items) => if items == [] then "" else Join(ItemTexts(v, 0), ",")
    case JsObject(_) => "[object Object]"
  }

  /** The texts an array's elements from `i` on contribute to `String(array)`: '' for null and undefined. */
  function ItemTexts(v: JsVal, i: nat): (r: seq<string>)
    requires v.JsArray? && i <= |v.items|
    ensures |r| == |v.items| - i
    ensures forall k :: 0 <= k < |r| ==> r[k] == if Nullish(v.items[i + k]) then "" else ToText(v.items[i + k])
    decreases v, |v.items| - i
  {
    if i == |v.items| then []
    else [if Nullish(v.items[i]) then "" else ToText(v.items[i])] + ItemTexts(v, i + 1)
  }

  /** An array of one element reads as that element, or '' when it is null or undefined. */
  lemma SingletonArrayText(x: JsVal)
    ensures ToText(JsArray([x])) == if Nullish(x) then "" else ToText(x)
  {
    assert ItemTexts(JsArray([x]), 0)[0] == if Nullish(x) then "" else ToText(x);
  }

  /** Two elements are joined by a comma, with no space. */
  lemma PairArrayText(x: JsVal, y: JsVal)
    ensures ToText(JsArray([x, y])) ==
      (if Nullish(x) then "" else ToText(x)) + "," + (if Nullish(y) then "" else ToText(y))
  {
    var texts := ItemTexts(JsArray([x, y]), 0);
    assert texts == [texts[0], texts[1]];
    assert texts[1..] == [texts[1]];
    assert Join(texts, ",") == texts[0] + "," + Join(texts[1..], ",");
    assert ToText(JsArray([x, y])) == Join(texts, ",");
  }

  /**
   * A number's text is its decimal digits, after a '-' when it is negative:
   * they denote its magnitude, with no leading zero except for 0 itself.
   */
  lemma NumberText(n: int)
    ensures var r, m := ToText(JsNum(n)), if n < 0 then -n else n;
      var digits := if n < 0 then r[1..] else r;
      && (n < 0 ==> |r| >= 2 && r[0] == '-')
      && |digits| >= 1
      && (forall k :: 0 <= k < |digits| ==> '0' <= digits[k] <= '9')
      && DigitsValue(digits) == m
      && (|digits| > 1 ==> digits[0] != '0')
  {
    if n < 0 {
      assert ("-" + NatText(-n))[1..] == NatText(-n);
    }
  }

  // ---------------------------------------------------------------------
  // generateVCard

  /** `${v || ''}`. */
  function OrEmptyText(v: JsVal): string
  {
    if Truthy(v) then ToText(v) else ""
  }

  /** `v ? prefix + v : ''`. */
  function OptionalLine(v: JsVal, prefix: string): string
  {
    if Truthy(v) then prefix + ToText(v) else ""
  }

  /** The eleven entries of the `lines` array, before filtering. */
  function VCardLineList(contact: JsVal): (lines: seq<string>)
    requires !Nullish(contact)
    ensures |lines| == 11
  {
    [ "BEGIN:VCARD",
      "VERSION:3.0",
      "FN:" + OrEmptyText(Prop(contact, "name")),
      "N:" + OrEmptyText(Prop(contact, "name")) + ";;;",
      OptionalLine(Prop(contact, "email"), "EMAIL:"),
      OptionalLine(Prop(contact, "phone"), "TEL:"),
      OptionalLine(Prop(contact, "company"), "ORG:"),
      OptionalLine(Prop(contact, "position"), "TITLE:"),
      OptionalLine(Prop(contact, "website"), "URL:"),
      OptionalLine(Prop(contact, "address"), "ADR:;;") + (if Truthy(Prop(contact, "address")) then ";;;" else ""),
      "END:VCARD" ]
  }

  /** `lines.filter(line => line !== '')`. */
  function NonEmpty(lines: seq<string>): (r: seq<string>)
    ensures |r| <= |lines|
  {
    if lines == [] then [] else Keep(lines[0]) + NonEmpty(lines[1..])
  }

  /** The filter keeps exactly the non-empty lines, and their order. */
  lemma {:induction false} NonEmptyMembers(lines: seq<string>)
    ensures forall x :: x in NonEmpty(lines) <==> x in lines && x != ""
    ensures forall j :: 0 <= j < |NonEmpty(lines)| ==> NonEmpty(lines)[j] != ""
    ensures (forall j :: 0 <= j < |lines| ==> lines[j] != "") ==> NonEmpty(lines) == lines
  {
    if lines != [] {
      NonEmptyMembers(lines[1..]);
      assert lines == [lines[0]] + lines[1..];
    }
  }

  /** `generateVCard(contact)`: the card opens with BEGIN and VERSION and closes with END. */
  function GenerateVCard(contact: JsVal): (card: string)
    requires !Nullish(contact)
    ensures StartsWith(card, "BEGIN:VCARD\r\nVERSION:3.0\r\n")
    ensures |card| >= 11 && card[|card| - 11..] == "\r\nEND:VCARD"
  {
    var lines := NonEmpty(VCardLineList(contact));
    VCardFrame(contact);
    FramedJoin(lines);
    Join(lines, "\r\n")
  }

  /** The fixed first two and last lines survive the filter. */
  lemma VCardFrame(contact: JsVal)
    requires !Nullish(contact)
    ensures var lines := NonEmpty(VCardLineList(contact));
      |lines| >= 5 && lines[0] == "BEGIN:VCARD" && lines[1] == "VERSION:3.0" && lines[|lines| - 1] == "END:VCARD"
  {
    VCardLines(contact);
  }

  /** A CRLF join of lines framed by BEGIN, VERSION and END starts and ends with them. */
  lemma FramedJoin(lines: seq<string>)
    requires |lines| >= 3 && lines[0] == "BEGIN:VCARD" && lines[1] == "VERSION:3.0" && lines[|lines| - 1] == "END:VCARD"
    ensures StartsWith(Join(lines, "\r\n"), "BEGIN:VCARD\r\nVERSION:3.0\r\n")
    ensures var j := Join(lines, "\r\n"); |j| >= 11 && j[|j| - 11..] == "\r\nEND:VCARD"
  {
    JoinFirstTwo(lines, "\r\n");
    JoinEndsWith(lines, "\r\n");
  }

  /** Joining at least three lines starts with the first two, each followed by the separator. */
  lemma JoinFirstTwo(lines: seq<string>, sep: string)
    requires |lines| >= 3
    ensures StartsWith(Join(lines, sep), lines[0] + sep + lines[1] + sep)
  {
    var rest := Join(lines[2..], sep);
    var head := lines[0] + sep + lines[1] + sep;
    assert lines[1..][1..] == lines[2..];
    assert Join(lines[1..], sep) == lines[1] + sep + rest;
    assert Join(lines, sep) == head + rest;
    assert (head + rest)[..|head|] == head;
  }

  /** Joining at least two lines ends with the separator and the last line. */
  lemma JoinEndsWith(lines: seq<string>, sep: string)
    requires |lines| >= 2
    ensures var j, tail := Join(lines, sep), sep + lines[|lines| - 1];
      |j| >= |tail| && j[|j| - |tail|..] == tail
  {
    JoinLast(lines, sep);
    var front := Join(lines[..|lines| - 1], sep);
    assert Join(lines, sep) == front + (sep + lines[|lines| - 1]);
  }

  /** Joining at least two lines is the join of all but the last, the separator, and the last. */
  lemma {:induction false} JoinLast(lines: seq<string>, sep: string)
    requires |lines| >= 2
    ensures Join(lines, sep) == Join(lines[..|lines| - 1], sep) + sep + lines[|lines| - 1]
  {
    if |lines| > 2 {
      JoinLast(lines[1..], sep);
      assert lines[1..][..|lines| - 2] == lines[..|lines| - 1][1..];
    }
  }

  /** The property lines of the card, as RFC 2426 names them, each present iff its field is truthy. */
  function ExpectedLines(contact: JsVal): (lines: seq<string>)
    requires !Nullish(contact)
  {
    var name := OrEmptyText(Prop(contact, "name"));
    ["BEGIN:VCARD"] + (["VERSION:3.0"] + (["FN:" + name] + (["N:" + name + ";;;"]
    + (Optional(Prop(contact, "email"), "EMAIL:")
    + (Optional(Prop(contact, "phone"), "TEL:")
    + (Optional(Prop(contact, "company"), "ORG:")
    + (Optional(Prop(contact, "position"), "TITLE:")
    + (Optional(Prop(contact, "website"), "URL:")
    + ((if Truthy(Prop(contact, "address")) then ["ADR:;;" + ToText(Prop(contact, "address")) + ";;;"] else [])
    + ["END:VCARD"])))))))))
  }

  /** One property line when the field is truthy, none otherwise. */
  function Optional(v: JsVal, name: string): seq<string>
  {
    if Truthy(v) then [name + ToText(v)] else []
  }

  /** The number of truthy optional fields. */
  function OptionalCount(contact: JsVal): nat
    requires !Nullish(contact)
  {
    (if Truthy(Prop(contact, "email")) then 1 else 0)
    + (if Truthy(Prop(contact, "phone")) then 1 else 0)
    + (if Truthy(Prop(contact, "company")) then 1 else 0)
    + (if Truthy(Prop(contact, "position")) then 1 else 0)
    + (if Truthy(Prop(contact, "website")) then 1 else 0)
    + (if Truthy(Prop(contact, "address")) then 1 else 0)
  }

  /** The filter's verdict on one line. */
  function Keep(line: string): seq<string>
  {
    if line != "" then [line] else []
  }

  /** Filtering an eleven-entry list keeps each non-empty entry, in place. */
  lemma NonEmptyEleven(l: seq<string>)
    requires |l| == 11
    ensures NonEmpty(l) == Keep(l[0]) + (Keep(l[1]) + (Keep(l[2]) + (Keep(l[3]) + (Keep(l[4]) + (Keep(l[5])
      + (Keep(l[6]) + (Keep(l[7]) + (Keep(l[8]) + (Keep(l[9]) + Keep(l[10]))))))))))
  {
    forall k | 0 <= k < 11
      ensures NonEmpty(l[k..]) == Keep(l[k]) + NonEmpty(l[k + 1..])
    {
      assert l[k..][1..] == l[k + 1..];
    }
    assert l[0..] == l;
    assert NonEmpty(l[11..]) == [];
    assert Keep(l[10]) + [] == Keep(l[10]);
  }

  /** An optional line survives the filter exactly when its field is truthy. */
  lemma KeepOptional(v: JsVal, prefix: string)
    requires prefix != ""
    ensures Keep(OptionalLine(v, prefix)) == Optional(v, prefix)
  {
  }

  /**
   * The filtered list is: BEGIN, VERSION, FN and N (with '' for a missing
   * name), then EMAIL, TEL, ORG, TITLE, URL and ADR each present exactly
   * when its field is truthy and holding the value verbatim, then END.
   */
  lemma VCardLines(contact: JsVal)
    requires !Nullish(contact)
    ensures NonEmpty(VCardLineList(contact)) == ExpectedLines(contact)
  {
    var l := VCardLineList(contact);
    NonEmptyEleven(l);
    var name := OrEmptyText(Prop(contact, "name"));
    assert Keep(l[0]) == ["BEGIN:VCARD"];
    assert Keep(l[1]) == ["VERSION:3.0"];
    assert Keep(l[2]) == ["FN:" + name];
    assert Keep(l[3]) == ["N:" + name + ";;;"];
    KeepOptional(Prop(contact, "email"), "EMAIL:");
    KeepOptional(Prop(contact, "phone"), "TEL:");
    KeepOptional(Prop(contact, "company"), "ORG:");
    KeepOptional(Prop(contact, "position"), "TITLE:");
    KeepOptional(Prop(contact, "website"), "URL:");
    var a := Prop(contact, "address");
    assert Keep(l[9]) == if Truthy(a) then ["ADR:;;" + ToText(a) + ";;;"] else [];
    assert Keep(l[10]) == ["END:VCARD"];
  }

  /** The card has 5 fixed lines plus one per truthy optional field. */
  lemma VCardLineCount(contact: JsVal)
    requires !Nullish(contact)
    ensures |NonEmpty(VCardLineList(contact))| == 5 + OptionalCount(contact)
  {
    VCardLines(contact);
  }

  // The CRLF line split a vCard reader applies, the inverse of the join.

  /** The first index of a CR LF pair in `s` at or after `from`, or -1. */
  function FirstCrlf(s: string, from: nat): (i: int)
    requires from <= |s|
    ensures i == -1 || from <= i < |s| - 1
    ensures i >= 0 ==> s[i] == '\r' && s[i + 1] == '\n'
    ensures forall k :: from <= k < (if i == -1 then |s| - 1 else i) ==> !(s[k] == '\r' && s[k + 1] == '\n')
    decreases |s| - from
  {
    if from + 1 >= |s| then -1
    else if s[from] == '\r' && s[from + 1] == '\n' then from
    else FirstCrlf(s, from + 1)
  }

  /** Splits a text at every CR LF. */
  function SplitCrlf(s: string): (lines: seq<string>)
    ensures |lines| >= 1
    decreases |s|
  {
    var i := FirstCrlf(s, 0);
    if i == -1 then [s] else [s[..i]] + SplitCrlf(s[i + 2..])
  }

  /** Splitting a CRLF join of CR-free lines gives the lines back. */
  lemma {:induction false} SplitJoin(lines: seq<string>)
    requires |lines| >= 1
    requires forall k :: 0 <= k < |lines| ==> '\r' !in lines[k]
    ensures SplitCrlf(Join(lines, "\r\n")) == lines
  {
    var s := Join(lines, "\r\n");
    var l := lines[0];
    if |lines| == 1 {
      assert FirstCrlf(s, 0) == -1;
    } else {
      var rest := Join(lines[1..], "\r\n");
      assert s == l + "\r\n" + rest;
      assert s[|l|] == '\r' && s[|l| + 1] == '\n';
      assert forall k :: 0 <= k < |l| ==> s[k] == l[k];
      assert FirstCrlf(s, 0) == |l|;
      assert s[..|l|] == l;
      assert s[|l| + 2..] == rest;
      SplitJoin(lines[1..]);
    }
  }

  /** A reader that splits the vCard at CR LF gets its property lines back, when no value holds a CR. */
  lemma VCardSplitsIntoLines(contact: JsVal)
    requires !Nullish(contact)
    requires forall k :: 0 <= k < |ExpectedLines(contact)| ==> '\r' !in ExpectedLines(contact)[k]
    ensures SplitCrlf(GenerateVCard(contact)) == ExpectedLines(contact)
    ensures ExpectedLines(contact)[..2] == ["BEGIN:VCARD", "VERSION:3.0"]
    ensures ExpectedLines(contact)[|ExpectedLines(contact)| - 1] == "END:VCARD"
  {
    VCardLines(contact);
    SplitJoin(ExpectedLines(contact));
  }

  // ---------------------------------------------------------------------
  // displayResults

  /** `data.results ? data.results : [data]`, and the `forEach` the result must support. */
  function ResultsArray(data: JsVal): (r: Result<seq<JsVal>, TypeError>)
    ensures Nullish(data) ==> r.Err?
    ensures !Nullish(data) && !Truthy(Prop(data, "results")) ==> r == Ok([data])
    ensures !Nullish(data) && Prop(data, "results").JsArray? ==> r == Ok(Prop(data, "results").items)
    ensures !Nullish(data) && Truthy(Prop(data, "results")) && !Prop(data, "results").JsArray? ==> r.Err?
  {
    if Nullish(data) then Err(TypeError)
    else
      var results := Prop(data, "results");
      if !Truthy(results) then Ok([data])
      else if results.JsArray? then Ok(results.items)
      else Err(TypeError)
  }

  datatype Cell = Dash | Text(text: string) | Link(href: string, text: string)

  /** One data cell: '-' for a falsy field, else its text, or a link for phone, email and website. */
  function FieldCell(contact: JsVal, key: string): (r: Result<Cell, TypeError>)
    requires !Nullish(contact)
    ensures !Truthy(Prop(contact, key)) ==> r == Ok(Dash)
    ensures Truthy(Prop(contact, key)) && key == "phone" ==>
      r == Ok(Link("tel:" + ToText(Prop(contact, key)), ToText(Prop(contact, key))))
    ensures Truthy(Prop(contact, key)) && key == "email" ==>
      r == Ok(Link("mailto:" + ToText(Prop(contact, key)), ToText(Prop(contact, key))))
    ensures Truthy(Prop(contact, key)) && key == "website" && Prop(contact, key).JsStr? ==>
      var v := Prop(contact, key).s;
      r == Ok(Link(if StartsWith(v, "http") then v else "http://" + v, v))
    ensures Truthy(Prop(contact, key)) && key == "website" && !Prop(contact, key).JsStr? ==> r.Err?
    ensures Truthy(Prop(contact, key)) && key != "phone" && key != "email" && key != "website" ==>
      r == Ok(Text(ToText(Prop(contact, key))))
  {
    var v := Prop(contact, key);
    if !Truthy(v) then Ok(Dash)
    else if key == "phone" then Ok(Link("tel:" + ToText(v), ToText(v)))
    else if key == "email" then Ok(Link("mailto:" + ToText(v), ToText(v)))
    else if key == "website" then
      // `href.startsWith` exists only on strings
      if v.JsStr? then Ok(Link(if StartsWith(v.s, "http") then v.s else "http://" + v.s, v.s))
      else Err(TypeError)
    else Ok(Text(ToText(v)))
  }

  const DisplayKeys: seq<string> := ["name", "position", "company", "phone", "email", "website", "address"]

  /** The seven data cells of a contact's row, in column order; only the website cell can fail. */
  function RowCells(contact: JsVal): (r: Result<seq<Cell>, TypeError>)
    requires !Nullish(contact)
    ensures r.Ok? ==> |r.value| == |DisplayKeys|
    ensures r.Ok? ==> forall k :: 0 <= k < |DisplayKeys| ==> FieldCell(contact, DisplayKeys[k]) == Ok(r.value[k])
    ensures r.Err? <==> FieldCell(contact, "website").Err?
  {
    match FieldCell(contact, "website")
    case Err(e) => Err(e)
    case Ok(web) =>
      Ok([FieldCell(contact, "name").value, FieldCell(contact, "position").value,
          FieldCell(contact, "company").value, FieldCell(contact, "phone").value,
          FieldCell(contact, "email").value, web, FieldCell(contact, "address").value])
  }

  /** Every cell but the website's always renders. */
  lemma OnlyWebsiteFails(contact: JsVal, key: string)
    requires !Nullish(contact) && key in DisplayKeys && key != "website"
    ensures FieldCell(contact, key).Ok?
  {
  }

  /** An entry with a truthy `error` is skipped. */
  predicate IsErrorEntry(entry: JsVal)
    requires !Nullish(entry)
  {
    Truthy(Prop(entry, "error"))
  }

  /** The entry does not make the `forEach` throw: only a non-string website can. */
  predicate EntryRenders(entry: JsVal)
  {
    !Nullish(entry) && (IsErrorEntry(entry) || FieldCell(entry, "website").Ok?)
  }

  /** Only an object whose `error` property is truthy is an error entry. */
  lemma ErrorEntryFacts(entry: JsVal)
    requires !Nullish(entry)
    ensures IsErrorEntry(entry) <==> entry.JsObject? && "error" in entry.props && Truthy(entry.props["error"])
  {
  }

  /** The non-error entries, in order (`validContacts`). */
  function ValidContacts(results: seq<JsVal>): (r: seq<JsVal>)
    requires forall k :: 0 <= k < |results| ==> !Nullish(results[k])
    ensures |r| <= |results|
  {
    if results == [] then []
    else
      var n := |results| - 1;
      ValidContacts(results[..n]) + (if IsErrorEntry(results[n]) then [] else [results[n]])
  }

  datatype TableRow = TableRow(index: nat, cells: seq<Cell>)

  datatype Display = Display(results: seq<JsVal>, contacts: seq<JsVal>, rows: seq<TableRow>, heading: string)

  /** Rows carry their contact's position in `results`, increasing, and its cells. */
  predicate RowsMatch(results: seq<JsVal>, contacts: seq<JsVal>, rows: seq<TableRow>)
  {
    && |rows| == |contacts|
    && (forall k :: 0 <= k < |rows| ==>
         && !Nullish(contacts[k])
         && rows[k].index < |results|
         && results[rows[k].index] == contacts[k]
         && RowCells(contacts[k]) == Ok(rows[k].cells))
    && (forall j, k :: 0 <= j < k < |rows| ==> rows[j].index < rows[k].index)
  }

  /** One more entry extends the valid contacts by itself exactly when it is not an error entry. */
  lemma ValidContactsStep(results: seq<JsVal>, i: nat)
    requires i < |results| && forall k :: 0 <= k <= i ==> !Nullish(results[k])
    ensures ValidContacts(results[..i + 1]) == ValidContacts(results[..i]) + (if IsErrorEntry(results[i]) then [] else [results[i]])
  {
    assert results[..i + 1][..i] == results[..i];
  }

  /** A row for entry `i`, past every earlier row, keeps the rows matched. */
  lemma RowsMatchExtend(results: seq<JsVal>, contacts: seq<JsVal>, rows: seq<TableRow>, i: nat, cells: seq<Cell>)
    requires RowsMatch(results, contacts, rows)
    requires forall k :: 0 <= k < |rows| ==> rows[k].index < i
    requires i < |results| && !Nullish(results[i]) && RowCells(results[i]) == Ok(cells)
    ensures RowsMatch(results, contacts + [results[i]], rows + [TableRow(i, cells)])
  {
  }

  /** Every non-error entry before `i` has a row that carries its position. */
  predicate Covered(results: seq<JsVal>, rows: seq<TableRow>, i: nat)
  {
    forall k :: 0 <= k < i && k < |results| && !Nullish(results[k]) && !IsErrorEntry(results[k]) ==>
      exists j :: 0 <= j < |rows| && rows[j].index == k
  }

  /** An error entry needs no row. */
  lemma CoveredSkip(results: seq<JsVal>, rows: seq<TableRow>, i: nat)
    requires Covered(results, rows, i)
    requires i < |results| && !Nullish(results[i]) && IsErrorEntry(results[i])
    ensures Covered(results, rows, i + 1)
  {
  }

  /** A row for entry `i` covers it, and the earlier rows stay in place. */
  lemma CoveredAppend(results: seq<JsVal>, rows: seq<TableRow>, i: nat, cells: seq<Cell>)
    requires Covered(results, rows, i)
    ensures Covered(results, rows + [TableRow(i, cells)], i + 1)
  {
    var rows' := rows + [TableRow(i, cells)];
    forall k | 0 <= k < i + 1 && k < |results| && !Nullish(results[k]) && !IsErrorEntry(results[k])
      ensures exists j :: 0 <= j < |rows'| && rows'[j].index == k
    {
      if k == i {
        assert rows'[|rows|].index == k;
      } else {
        var j :| 0 <= j < |rows| && rows[j].index == k;
        assert rows'[j].index == k;
      }
    }
  }

  /** The state of the `forEach` after the entries before `i`: all rendered, their contacts and rows collected. */
  predicate RenderedUpTo(results: seq<JsVal>, i: nat, contacts: seq<JsVal>, rows: seq<TableRow>)
  {
    && i <= |results|
    && (forall k :: 0 <= k < i ==> EntryRenders(results[k]))
    && contacts == ValidContacts(results[..i])
    && RowsMatch(results, contacts, rows)
    && (forall k :: 0 <= k < |rows| ==> rows[k].index < i)
    && Covered(results, rows, i)
  }

  /** Skipping an error entry keeps the state. */
  lemma RenderSkip(results: seq<JsVal>, i: nat, contacts: seq<JsVal>, rows: seq<TableRow>)
    requires RenderedUpTo(results, i, contacts, rows)
    requires i < |results| && !Nullish(results[i]) && IsErrorEntry(results[i])
    ensures RenderedUpTo(results, i + 1, contacts, rows)
  {
    ValidContactsStep(results, i);
    CoveredSkip(results, rows, i);
  }

  /** Rendering entry `i` adds its contact and its row. */
  lemma RenderRow(results: seq<JsVal>, i: nat, contacts: seq<JsVal>, rows: seq<TableRow>, cells: seq<Cell>)
    requires RenderedUpTo(results, i, contacts, rows)
    requires i < |results| && !Nullish(results[i]) && !IsErrorEntry(results[i])
    requires RowCells(results[i]) == Ok(cells)
    ensures RenderedUpTo(results, i + 1, contacts + [results[i]], rows + [TableRow(i, cells)])
  {
    ValidContactsStep(results, i);
    RowsMatchExtend(results, contacts, rows, i, cells);
    CoveredAppend(results, rows, i, cells);
  }

  /** The `forEach` over the normalised list: skips error entries and renders the rest. */
  method RenderRows(results: seq<JsVal>) returns (r: Result<(seq<JsVal>, seq<TableRow>), TypeError>)
    ensures r.Err? <==> exists k :: 0 <= k < |results| && !EntryRenders(results[k])
    ensures r.Ok? ==> forall k :: 0 <= k < |results| ==> !Nullish(results[k])
    ensures r.Ok? ==> r.value.0 == ValidContacts(results)
    ensures r.Ok? ==> RowsMatch(results, r.value.0, r.value.1)
    ensures r.Ok? ==> Covered(results, r.value.1, |results|)
  {
    var contacts: seq<JsVal> := [];
    var rows: seq<TableRow> := [];
    var i := 0;
    while i < |results|
      invariant RenderedUpTo(results, i, contacts, rows)
    {
      var contact := results[i];
      if Nullish(contact) {
        assert !EntryRenders(results[i]);
        return Err(TypeError);
      }
      if IsErrorEntry(contact) {
        RenderSkip(results, i, contacts, rows);
      } else {
        var cells := RowCells(contact);
        if cells.Err? {
          assert !EntryRenders(results[i]);
          return Err(TypeError);
        }
        RenderRow(results, i, contacts, rows, cells.value);
        contacts := contacts + [contact];
        rows := rows + [TableRow(i, cells.value)];
      }
      i := i + 1;
    }
    assert results[..i] == results;
    return Ok((contacts, rows));
  }

  /**
   * `displayResults(data)`: the normalised list, the contacts shown, one
   * row per contact whose checkbox carries the contact's position in the
   * list, and the heading with their count.
   */
  method DisplayResults(data: JsVal) returns (r: Result<Display, TypeError>)
    ensures ResultsArray(data).Err? ==> r.Err?
    ensures ResultsArray(data).Ok? ==>
      (r.Err? <==> exists k :: 0 <= k < |ResultsArray(data).value| && !EntryRenders(ResultsArray(data).value[k]))
    ensures r.Ok? ==> r.value.results == ResultsArray(data).value
    ensures r.Ok? ==> (forall k :: 0 <= k < |r.value.results| ==> !Nullish(r.value.results[k]))
    ensures r.Ok? ==> r.value.contacts == ValidContacts(r.value.results)
    ensures r.Ok? ==> RowsMatch(r.value.results, r.value.contacts, r.value.rows)
    ensures r.Ok? ==> r.value.heading == NatText(|r.value.contacts|) + " Contacts Found"
  {
    var normalised := ResultsArray(data);
    if normalised.Err? {
      return Err(TypeError);
    }
    var rendered := RenderRows(normalised.value);
    if rendered.Err? {
      return Err(TypeError);
    }
    var (contacts, rows) := rendered.value;
    return Ok(Display(normalised.value, contacts, rows, NatText(|contacts|) + " Contacts Found"));
  }

  /** The shown contacts are exactly the non-error entries: each is in the list and none is an error. */
  lemma {:induction false} ValidContactsAreNonErrors(results: seq<JsVal>)
    requires forall k :: 0 <= k < |results| ==> !Nullish(results[k])
    ensures forall c :: c in ValidContacts(results) ==> c in results && !IsErrorEntry(c)
    ensures forall k :: 0 <= k < |results| && !IsErrorEntry(results[k]) ==> results[k] in ValidContacts(results)
  {
    if results != [] {
      var n := |results| - 1;
      ValidContactsAreNonErrors(results[..n]);
      forall k | 0 <= k < n && !IsErrorEntry(results[k])
        ensures results[k] in ValidContacts(results)
      {
        assert results[..n][k] == results[k];
      }
    }
  }

  /** With no error entries, every entry is shown, in order. */
  lemma {:induction false} NoErrorsAllShown(results: seq<JsVal>)
    requires forall k :: 0 <= k < |results| ==> !Nullish(results[k]) && !IsErrorEntry(results[k])
    ensures ValidContacts(results) == results
  {
    if results != [] {
      var n := |results| - 1;
      NoErrorsAllShown(results[..n]);
      assert results[..n] + [results[n]] == results;
    }
  }

  // ---------------------------------------------------------------------
  // Bulk download

  datatype BulkOutcome = NothingSelected | Downloaded(indices: seq<nat>)

  /** The parsed checkbox indices that are numbers inside the results list, in checkbox order. */
  function InRange(selected: seq<Option<int>>, n: nat): (r: seq<nat>)
    ensures |r| <= |selected|
    ensures forall k :: 0 <= k < |r| ==> r[k] < n
  {
    if selected == [] then []
    else
      var last := selected[|selected| - 1];
      InRange(selected[..|selected| - 1], n)
      + (if last.Some? && 0 <= last.value < n then [last.value as nat] else [])
  }

  /** An index is used exactly when some checkbox parsed to it and it lies in [0, n). */
  lemma {:induction false} InRangeExact(selected: seq<Option<int>>, n: nat)
    ensures forall i :: i in InRange(selected, n) ==> i < n
    ensures forall i :: i in InRange(selected, n) <==> Some(i) in selected && 0 <= i < n
  {
    if selected != [] {
      var m := |selected| - 1;
      InRangeExact(selected[..m], n);
      assert selected == selected[..m] + [selected[m]];
    }
  }

  /**
   * The bulk-download click handler: nothing when no checkbox is checked,
   * otherwise the position of each checked entry whose parsed index is
   * not NaN (None) and lies inside the results list.
   */
  method BulkDownload(resultsLength: nat, selected: seq<Option<int>>) returns (out: BulkOutcome)
    ensures selected == [] <==> out == NothingSelected
    ensures out.Downloaded? ==> out.indices == InRange(selected, resultsLength)
  {
    if |selected| == 0 {
      return NothingSelected;
    }
    var indices: seq<nat> := [];
    var i := 0;
    while i < |selected|
      invariant 0 <= i <= |selected|
      invariant indices == InRange(selected[..i], resultsLength)
    {
      var index := selected[i];
      if index.Some? && index.value >= 0 && index.value < resultsLength {
        indices := indices + [index.value as nat];
      }
      assert selected[..i + 1][..i] == selected[..i];
      i := i + 1;
    }
    assert selected[..i] == selected;
    return Downloaded(indices);
  }

  // ---------------------------------------------------------------------
  // handleFiles

  datatype FileInfo = FileInfo(name: string, mimeType: string)

  /** `type.match('image.*')`: the unanchored pattern matches when "image" occurs anywhere. */
  predicate IsImageType(t: string)
  {
    Contains(t, "image")
  }

  /** `pattern` occurs somewhere in `t`. */
  predicate Contains(t: string, pattern: string)
  {
    StartsWith(t, pattern) || (t != "" && Contains(t[1..], pattern))
  }

  /** `Contains` is the existence of an occurrence. */
  lemma {:induction false} ContainsOccurs(t: string, pattern: string)
    ensures Contains(t, pattern) <==> exists i :: OccursAt(t, pattern, i)
  {
    if StartsWith(t, pattern) {
      assert OccursAt(t, pattern, 0);
    } else if t == [] {
      assert forall i :: !OccursAt(t, pattern, i);
    } else {
      ContainsOccurs(t[1..], pattern);
      if exists i :: OccursAt(t, pattern, i) {
        var i :| OccursAt(t, pattern, i);
        assert i != 0;
        assert t[1..][i - 1..i - 1 + |pattern|] == t[i..i + |pattern|];
        assert OccursAt(t[1..], pattern, i - 1);
      }
      if exists i :: OccursAt(t[1..], pattern, i) {
        var i :| OccursAt(t[1..], pattern, i);
        assert t[i + 1..i + 1 + |pattern|] == t[1..][i..i + |pattern|];
        assert OccursAt(t, pattern, i + 1);
      }
    }
  }

  /** A MIME type is an image type exactly when "image" occurs somewhere in it ("x-image/png" included). */
  lemma ImageTypeOccurs(t: string)
    ensures IsImageType(t) <==> exists i :: OccursAt(t, "image", i)
  {
    ContainsOccurs(t, "image");
  }

  /** Positions of the files that get a preview, in order. */
  function ImageIndices(files: seq<FileInfo>): (r: seq<nat>)
    ensures |r| <= |files|
  {
    if files == [] then []
    else
      var n := |files| - 1;
      ImageIndices(files[..n]) + (if IsImageType(files[n].mimeType) then [n] else [])
  }

  /** A file gets a preview exactly when its type contains "image". */
  lemma {:induction false} ImageIndicesExact(files: seq<FileInfo>)
    ensures forall i :: i in ImageIndices(files) <==> 0 <= i < |files| && IsImageType(files[i].mimeType)
  {
    if files != [] {
      var n := |files| - 1;
      ImageIndicesExact(files[..n]);
      forall i | 0 <= i < n ensures files[..n][i] == files[i] { }
    }
  }

  /** The previews are made in file order. */
  lemma {:induction false} ImageIndicesIncreasing(files: seq<FileInfo>)
    ensures forall i :: i in ImageIndices(files) ==> i < |files|
    ensures forall j, k :: 0 <= j < k < |ImageIndices(files)| ==> ImageIndices(files)[j] < ImageIndices(files)[k]
  {
    if files != [] {
      var n := |files| - 1;
      var prev := ImageIndices(files[..n]);
      ImageIndicesIncreasing(files[..n]);
      assert forall j :: 0 <= j < |prev| ==> prev[j] in prev;
    }
  }

  /** One more file extends the previews by its index exactly when it is an image. */
  lemma ImageIndicesStep(files: seq<FileInfo>, i: nat)
    requires i < |files|
    ensures ImageIndices(files[..i + 1]) == ImageIndices(files[..i]) + (if IsImageType(files[i].mimeType) then [i] else [])
  {
    assert files[..i + 1][..i] == files[..i];
  }

  /** One more preview adds one to the count exactly when it loaded. */
  lemma LoadedCountStep(previews: seq<nat>, i: nat, loaded: nat -> bool)
    ensures LoadedCount(previews + [i], loaded) == LoadedCount(previews, loaded) + (if loaded(i) then 1 else 0)
  {
    assert (previews + [i])[..|previews|] == previews;
  }

  /** No more previews load than were started. */
  lemma {:induction false} LoadedCountBound(previews: seq<nat>, loaded: nat -> bool)
    ensures LoadedCount(previews, loaded) <= |previews|
  {
    if previews != [] {
      LoadedCountBound(previews[..|previews| - 1], loaded);
    }
  }

  /** How many of the given previews loaded. */
  function LoadedCount(previews: seq<nat>, loaded: nat -> bool): nat
  {
    if previews == [] then 0
    else LoadedCount(previews[..|previews| - 1], loaded) + (if loaded(previews[|previews| - 1]) then 1 else 0)
  }

  /**
   * `handleFiles(files)`: non-image files are skipped; a reader starts for
   * every image, and `processed` counts the previews whose load succeeded
   * (`loaded(i)` for file i).
   */
  method HandleFiles(files: seq<FileInfo>, loaded: nat -> bool) returns (previewed: seq<nat>, processed: nat)
    ensures previewed == ImageIndices(files)
    ensures processed == LoadedCount(previewed, loaded)
    ensures processed <= |previewed|
  {
    previewed, processed := [], 0;
    if |files| == 0 {
      return;
    }
    var i := 0;
    while i < |files|
      invariant 0 <= i <= |files|
      invariant previewed == ImageIndices(files[..i])
      invariant processed == LoadedCount(previewed, loaded)
    {
      var isImage := IsImageType(files[i].mimeType);
      ImageIndicesStep(files, i);
      if isImage {
        LoadedCountStep(previewed, i, loaded);
        previewed := previewed + [i];
        if loaded(i) {
          processed := processed + 1;
        }
      }
      i := i + 1;
    }
    assert files[..i] == files;
    LoadedCountBound(previewed, loaded);
  }
}

=== FILE: cards_openai_helper.dfy ===
/**
 * `extract_card_details` of src/cards/utils/openai_helper.py, the variant
 * the view uses: a fenced reply is cut to the span from the first '[' (else
 * '{') to the last ']' (else '}'), the text is handed to `json.loads`, a
 * single dict is wrapped in a list, and every card is checked for the three
 * required fields without being dropped. `json.loads` is the parameter
 * `parse`.
 */
module CardsOpenAiHelper {
  import opened Wrappers
  import opened JsonValue
  import opened Strings

  const Fence := "```"
  const RequiredFields: seq<string> := ["name", "business_name", "contact_number"]

  /** The exceptions `extract_card_details` lets escape. */
  datatype ExtractError =
    | NoJsonContent              // ValueError raised in the fenced branch
    | ParseFailure(detail: string) // a JSONDecodeError, re-raised as ValueError
    | TypeFailure(text: string)    // an AttributeError or TypeError from the validation loop

  const ParsePrefix := "Failed to parse API response: "

  /** `str(e)` of each exception. */
  function Message(e: ExtractError): (m: string)
    ensures e.NoJsonContent? ==> m == "Could not find valid JSON content in response"
    ensures e.ParseFailure? ==> StartsWith(m, ParsePrefix) && m[|ParsePrefix|..] == e.detail
    ensures e.TypeFailure? ==> m == e.text
  {
    match e
    case NoJsonContent => "Could not find valid JSON content in response"
    case ParseFailure(detail) => ParsePrefix + detail
    case TypeFailure(text) => text
  }

  /**
   * What the function returns (`card_details`) and, per card, the
   * `missing_fields` list that the warning log receives.
   */
  datatype Extraction = Extraction(cards: Json, missing: seq<seq<string>>)

  /** Index of the first '[', or of the first '{' when there is no '['. */
  function OpenIndex(s: string): (r: int)
    ensures r == -1 <==> '[' !in s && '{' !in s
    ensures r >= 0 ==> r < |s| && (s[r] == '[' || ('[' !in s && s[r] == '{'))
    ensures r >= 0 ==> forall k :: 0 <= k < r ==> s[k] != s[r]
  {
    if Find(s, '[') == -1 then Find(s, '{') else Find(s, '[')
  }

  /** Index of the last ']', or of the last '}' when there is no ']'. */
  function CloseIndex(s: string): (r: int)
    ensures r == -1 <==> ']' !in s && '}' !in s
    ensures r >= 0 ==> r < |s| && (s[r] == ']' || (']' !in s && s[r] == '}'))
    ensures r >= 0 ==> forall k :: r < k < |s| ==> s[k] != s[r]
  {
    if RFind(s, ']') == -1 then RFind(s, '}') else RFind(s, ']')
  }

  /** The markdown-fence cleaning step, before `json.loads`. */
  function CleanResponse(s: string): (r: Result<string, ExtractError>)
    ensures !StartsWith(s, Fence) ==> r == Ok(s)
    ensures r.Err? <==>
      StartsWith(s, Fence) && (('[' !in s && '{' !in s) || (']' !in s && '}' !in s))
    ensures r.Err? ==> r.error == NoJsonContent
    ensures r.Ok? ==> |r.value| <= |s|
  {
    if StartsWith(s, Fence) then
      var start := OpenIndex(s);
      var end := CloseIndex(s);
      if start == -1 || end == -1 then Err(NoJsonContent)
      else Ok(Slice(s, start, end + 1))
    else Ok(s)
  }

  /** The fields of `RequiredFields` that are absent from the card or falsy. */
  function MissingFields(card: map<string, Json>): (m: seq<string>)
    ensures forall f :: f in m <==> f in RequiredFields && !Truthy(GetOr(card, f, JNull))
    ensures forall i, j :: 0 <= i < j < |m| ==> m[i] != m[j]
  {
    (if !Truthy(GetOr(card, "name", JNull)) then ["name"] else [])
    + (if !Truthy(GetOr(card, "business_name", JNull)) then ["business_name"] else [])
    + (if !Truthy(GetOr(card, "contact_number", JNull)) then ["contact_number"] else [])
  }

  /** `card.get(field)` on each element of the list: only dicts get through. */
  function CheckItems(items: seq<Json>): (r: Result<seq<seq<string>>, ExtractError>)
    ensures r.Ok? <==> forall k :: 0 <= k < |items| ==> items[k].JObject?
    ensures r.Ok? ==> |r.value| == |items|
    ensures r.Ok? ==> forall k :: 0 <= k < |items| ==> r.value[k] == MissingFields(items[k].fields)
    ensures r.Err? ==> exists k :: 0 <= k < |items| && !items[k].JObject?
                        && (forall j :: 0 <= j < k ==> items[j].JObject?)
                        && r.error == TypeFailure("'" + TypeName(items[k]) + "' object has no attribute 'get'")
  {
    if items == [] then Ok([])
    else if !items[0].JObject? then
      Err(TypeFailure("'" + TypeName(items[0]) + "' object has no attribute 'get'"))
    else
      match CheckItems(items[1..])
      case Err(e) =>
        var k :| 0 <= k < |items[1..]| && !items[1..][k].JObject?
                 && (forall j :: 0 <= j < k ==> items[1..][j].JObject?)
                 && e == TypeFailure("'" + TypeName(items[1..][k]) + "' object has no attribute 'get'");
        assert forall j :: 0 <= j < k + 1 ==> items[j].JObject? by {
          assert forall j :: 1 <= j < k + 1 ==> items[j] == items[1..][j - 1];
        }
        Err(e)
      case Ok(rest) => Ok([MissingFields(items[0].fields)] + rest)
  }

  /** The `for card in card_details` validation loop, over whatever `json.loads` gave. */
  function Validate(v: Json): (r: Result<seq<seq<string>>, ExtractError>)
    ensures r.Ok? ==> (v.JArray? && IsListOfObjects(v)) || v == JString("") || v == JObject(map[])
    ensures v.JArray? ==> (r.Ok? <==> IsListOfObjects(v))
    ensures r.Ok? && v.JArray? ==> |r.value| == |v.items|
    ensures r.Ok? && !v.JArray? ==> r.value == []
    ensures (v.JString? || v.JObject?) && r.Err? ==> r.error == TypeFailure("'str' object has no attribute 'get'")
    ensures !(v.JArray? || v.JString? || v.JObject?) ==>
      r == Err(TypeFailure("'" + TypeName(v) + "' object is not iterable"))
  {
    match v
    case JArray(items) => CheckItems(items)
    case JString(s) =>
      // iterating a string yields one-character strings, which have no `get`
      if s == "" then Ok([]) else Err(TypeFailure("'str' object has no attribute 'get'"))
    case JObject(fields) =>
      // iterating a dict yields its keys, which are strings
      if fields == map[] then Ok([]) else Err(TypeFailure("'str' object has no attribute 'get'"))
    case _ => Err(TypeFailure("'" + TypeName(v) + "' object is not iterable"))
  }

  /** A dict becomes a one-element list; anything else is kept. */
  function WrapObject(v: Json): (w: Json)
    ensures v.JObject? ==> w == JArray([v])
    ensures !v.JObject? ==> w == v
  {
    if v.JObject? then JArray([v]) else v
  }

  /** `extract_card_details(response)`. */
  function ExtractCardDetails(parse: string -> ParseResult, response: string): (r: Result<Extraction, ExtractError>)
    ensures r.Ok? ==> IsListOfObjects(r.value.cards) || r.value.cards == JString("")
    ensures r.Ok? && r.value.cards.JArray? ==> |r.value.missing| == |r.value.cards.items|
  {
    match CleanResponse(response)
    case Err(e) => Err(e)
    case Ok(text) =>
      match parse(text)
      case DecodeError(msg) => Err(ParseFailure(msg))
      case Parsed(v) =>
        var cards := WrapObject(v);
        match Validate(cards)
        case Err(e) => Err(e)
        case Ok(missing) => Ok(Extraction(cards, missing))
  }

  /**
   * The reply as `analyze_image` hands it over: the message content may be
   * `None`, and then the first `startswith` call raises.
   */
  function ExtractReply(parse: string -> ParseResult, reply: Option<string>): (r: Result<Extraction, ExtractError>)
    ensures reply.None? ==> r == Err(TypeFailure("'NoneType' object has no attribute 'startswith'"))
    ensures reply.Some? ==> r == ExtractCardDetails(parse, reply.value)
  {
    match reply
    case None => Err(TypeFailure("'NoneType' object has no attribute 'startswith'"))
    case Some(s) => ExtractCardDetails(parse, s)
  }

  // ---------------------------------------------------------------------
  // Properties of the cleaning step

  /**
   * A fenced reply is cut to the span that starts at the first '[' (at the
   * first '{' when there is no '[') and ends at the last ']' (at the last
   * '}' when there is no ']'), both included.
   */
  lemma FencedSpan(s: string, a: nat, b: nat)
    requires StartsWith(s, Fence)
    requires a < |s| && b < |s|
    requires (s[a] == '[' && '[' !in s[..a]) || ('[' !in s && s[a] == '{' && '{' !in s[..a])
    requires (s[b] == ']' && ']' !in s[b + 1..]) || (']' !in s && s[b] == '}' && '}' !in s[b + 1..])
    ensures CleanResponse(s) == Ok(if a <= b then s[a..b + 1] else "")
  {
    OpenIndexIs(s, a);
    CloseIndexIs(s, b);
  }

  lemma OpenIndexIs(s: string, a: nat)
    requires a < |s|
    requires (s[a] == '[' && '[' !in s[..a]) || ('[' !in s && s[a] == '{' && '{' !in s[..a])
    ensures OpenIndex(s) == a
  {
    assert forall k :: 0 <= k < a ==> s[..a][k] == s[k];
  }

  lemma CloseIndexIs(s: string, b: nat)
    requires b < |s|
    requires (s[b] == ']' && ']' !in s[b + 1..]) || (']' !in s && s[b] == '}' && '}' !in s[b + 1..])
    ensures CloseIndex(s) == b
  {
    assert forall k :: b < k < |s| ==> s[b + 1..][k - b - 1] == s[k];
  }

  /** An array payload between bracket-free fence text comes out unchanged. */
  lemma {:induction false} FenceTransparentArray(tag: string, p: string, trailer: string)
    requires NoBrackets(tag) && NoBrackets(trailer)
    requires |p| >= 2 && p[0] == '[' && p[|p| - 1] == ']'
    ensures CleanResponse(Fence + tag + p + trailer) == Ok(p)
  {
    var s := Fence + tag + p + trailer;
    var a, b := |Fence + tag|, |Fence + tag| + |p| - 1;
    assert s[..|Fence|] == Fence;
    assert s[a..b + 1] == p;
    assert s[..a] == Fence + tag;
    assert s[b + 1..] == trailer;
    FencedSpan(s, a, b);
  }

  /** An object payload with no '[' or ']' inside also comes out unchanged. */
  lemma {:induction false} FenceTransparentObject(tag: string, p: string, trailer: string)
    requires NoBrackets(tag) && NoBrackets(trailer)
    requires |p| >= 2 && p[0] == '{' && p[|p| - 1] == '}'
    requires '[' !in p && ']' !in p
    ensures CleanResponse(Fence + tag + p + trailer) == Ok(p)
  {
    var s := Fence + tag + p + trailer;
    var a, b := |Fence + tag|, |Fence + tag| + |p| - 1;
    assert s[..|Fence|] == Fence;
    assert s[a..b + 1] == p;
    assert s[..a] == Fence + tag;
    assert s[b + 1..] == trailer;
    assert '[' !in s && ']' !in s by {
      assert forall k :: 0 <= k < |s| ==> s[k] in Fence + tag || s[k] in p || s[k] in trailer;
    }
    FencedSpan(s, a, b);
  }

  /**
   * Because '[' is preferred over '{', an object payload that holds a list
   * is cut down to the list: the cleaned text starts at the list's '['.
   */
  lemma {:induction false} FencedObjectCutToArray(tag: string, p: string, trailer: string, a: nat, b: nat)
    requires NoBrackets(tag) && NoBrackets(trailer)
    requires |p| >= 2 && p[0] == '{' && p[|p| - 1] == '}'
    requires a < b < |p| && p[a] == '[' && '[' !in p[..a] && p[b] == ']'
    ensures CleanResponse(Fence + tag + p + trailer).Ok?
    ensures CleanResponse(Fence + tag + p + trailer).value != ""
    ensures CleanResponse(Fence + tag + p + trailer).value[0] == '['
  {
    var s := Fence + tag + p + trailer;
    var off := |Fence + tag|;
    assert s[..|Fence|] == Fence;
    assert s[off + a] == '[';
    assert s[off + b] == ']';
    assert '[' !in s[..off + a] by {
      assert forall k :: 0 <= k < off + a ==>
        (k < off && s[k] == (Fence + tag)[k]) || (off <= k && s[k] == p[..a][k - off]);
    }
    assert OpenIndex(s) == off + a;
    assert CloseIndex(s) >= off + b;
  }

  predicate NoBrackets(t: string)
  {
    '[' !in t && ']' !in t && '{' !in t && '}' !in t
  }

  // ---------------------------------------------------------------------
  // Properties of the whole extraction

  /** A reply that does not start with a fence reaches `json.loads` unchanged. */
  lemma UnfencedParsedAsIs(parse: string -> ParseResult, s: string)
    requires !StartsWith(s, Fence)
    ensures parse(s).DecodeError? ==> ExtractCardDetails(parse, s) == Err(ParseFailure(parse(s).msg))
    ensures parse(s).Parsed? && parse(s).value.JObject? ==>
      ExtractCardDetails(parse, s) == Ok(Extraction(JArray([parse(s).value]), [MissingFields(parse(s).value.fields)]))
  {
    if parse(s).Parsed? && parse(s).value.JObject? {
      var card := parse(s).value;
      var items := [card];
      assert items[1..] == [];
      assert items[0].JObject?;
      assert [MissingFields(card.fields)] + [] == [MissingFields(card.fields)];
      assert CheckItems(items) == Ok([MissingFields(card.fields)]);
    }
  }

  /** Fenced or not, a reply that parses to a dict comes back as a one-element list. */
  lemma DictWrapped(parse: string -> ParseResult, s: string, f: map<string, Json>)
    requires CleanResponse(s).Ok? && parse(CleanResponse(s).value) == Parsed(JObject(f))
    ensures ExtractCardDetails(parse, s) == Ok(Extraction(JArray([JObject(f)]), [MissingFields(f)]))
  {
    var items := [JObject(f)];
    assert items[1..] == [];
    assert [MissingFields(f)] + [] == [MissingFields(f)];
    assert CheckItems(items) == Ok([MissingFields(f)]);
  }

  /** A fenced reply without an opening or a closing bracket fails before any parse. */
  lemma FencedWithoutBracketsFails(parse: string -> ParseResult, s: string)
    requires StartsWith(s, Fence)
    requires ('[' !in s && '{' !in s) || (']' !in s && '}' !in s)
    ensures ExtractCardDetails(parse, s) == Err(NoJsonContent)
    ensures Message(ExtractCardDetails(parse, s).error) == "Could not find valid JSON content in response"
  {
  }

  /** A parse failure surfaces with the "Failed to parse API response: " prefix. */
  lemma ParseFailureMessage(parse: string -> ParseResult, s: string)
    requires CleanResponse(s).Ok? && parse(CleanResponse(s).value).DecodeError?
    ensures ExtractCardDetails(parse, s).Err?
    ensures Message(ExtractCardDetails(parse, s).error)
            == "Failed to parse API response: " + parse(CleanResponse(s).value).msg
  {
  }

  /** The empty reply is not fenced, so it fails in `json.loads`. */
  lemma EmptyResponseFailsToParse(parse: string -> ParseResult)
    requires parse("").DecodeError?
    ensures ExtractCardDetails(parse, "") == Err(ParseFailure(parse("").msg))
  {
    assert !StartsWith("", Fence);
  }

  /**
   * A parsed list of dicts is returned as it is (same length, same order),
   * every card kept whatever it lacks; a card is flagged exactly when one
   * of the required fields is absent or falsy.
   */
  lemma ListKeptAndFlagged(parse: string -> ParseResult, s: string, items: seq<Json>)
    requires CleanResponse(s).Ok? && parse(CleanResponse(s).value) == Parsed(JArray(items))
    requires forall k :: 0 <= k < |items| ==> items[k].JObject?
    ensures ExtractCardDetails(parse, s).Ok?
    ensures ExtractCardDetails(parse, s).value.cards == JArray(items)
    ensures forall k :: 0 <= k < |items| ==>
      (ExtractCardDetails(parse, s).value.missing[k] != [] <==>
        exists f :: f in RequiredFields && !Truthy(GetOr(items[k].fields, f, JNull)))
  {
    var m := ExtractCardDetails(parse, s).value.missing;
    forall k | 0 <= k < |items|
      ensures m[k] != [] <==> exists f :: f in RequiredFields && !Truthy(GetOr(items[k].fields, f, JNull))
    {
      assert m[k] == MissingFields(items[k].fields);
      if m[k] != [] {
        assert m[k][0] in m[k];
      }
    }
  }

  /** A list with a non-dict element is rejected with Python's AttributeError text. */
  lemma NonDictElementFails(parse: string -> ParseResult, s: string, items: seq<Json>, k: nat)
    requires CleanResponse(s).Ok? && parse(CleanResponse(s).value) == Parsed(JArray(items))
    requires k < |items| && !items[k].JObject?
    ensures ExtractCardDetails(parse, s).Err?
    ensures ExtractCardDetails(parse, s).error.TypeFailure?
  {
  }
}

=== FILE: json_value.dfy ===
/**
 * The Python values that `json.loads` produces, with the two notions of
 * the Python runtime that the core relies on: truthiness and type names.
 * Dictionary key order is not represented.
 */
module JsonValue {

  datatype Json =
    | JNull
    | JBool(b: bool)
    | JInt(i: int)
    | JFloat(r: real)
    | JString(s: string)
    | JArray(items: seq<Json>)
    | JObject(fields: map<string, Json>)

  /** The outcome of `json.loads`: a value, or a `JSONDecodeError` and its text. */
  datatype ParseResult = Parsed(value: Json) | DecodeError(msg: string)

  /** Python truthiness (`bool(v)`). */
  predicate Truthy(v: Json)
  {
    match v
    case JNull => false
    case JBool(b) => b
    case JInt(i) => i != 0
    case JFloat(r) => r != 0.0
    case JString(s) => s != ""
    case JArray(items) => items != []
    case JObject(fields) => fields != map[]
  }

  /** None, False, zero and the empty string, list and dict are falsy; every other value is truthy. */
  lemma TruthyFacts(v: Json)
    ensures v.JNull? ==> !Truthy(v)
    ensures v.JString? ==> (Truthy(v) <==> v.s != "")
    ensures v.JInt? ==> (Truthy(v) <==> v.i != 0)
    ensures v.JArray? ==> (Truthy(v) <==> |v.items| > 0)
    ensures v.JObject? ==> (Truthy(v) <==> |v.fields| > 0)
  {
    if v.JObject? && v.fields != map[] {
      var k :| k in v.fields;
    }
  }

  /** `type(v).__name__`, as it appears in Python's error messages. */
  function TypeName(v: Json): string
  {
    match v
    case JNull => "NoneType"
    case JBool(_) => "bool"
    case JInt(_) => "int"
    case JFloat(_) => "float"
    case JString(_) => "str"
    case JArray(_) => "list"
    case JObject(_) => "dict"
  }

  /** `d.get(key, default)` on a dict. */
  function GetOr(d: map<string, Json>, key: string, default: Json): (v: Json)
    ensures key in d ==> v == d[key]
    ensures key !in d ==> v == default
  {
    if key in d then d[key] else default
  }

  /** A list value all of whose elements are dicts. */
  predicate IsListOfObjects(v: Json)
  {
    v.JArray? && forall k :: 0 <= k < |v.items| ==> v.items[k].JObject?
  }
}

=== FILE: models.dfy ===
/**
 * `VisitingCard` of src/cards/models.py: its fields, `__str__`, and
 * `to_dict`, which lays the card out under the spreadsheet's column labels.
 * The ORM side (saving, ordering) is not modelled; `created_at` is an
 * instant whose `strftime('%Y-%m-%d %H:%M:%S')` text is given by `format`.
 */
module Models {
  import opened Wrappers
  import opened JsonValue
  import SheetsHelper

  type Instant = int

  datatype VisitingCard = VisitingCard(
    name: string,
    businessName: string,
    jobTitle: Option<string>,
    contactNumber: string,
    email: Option<string>,
    website: Option<string>,
    address: Option<string>,
    createdAt: Instant)

  /** `value or ''` on a nullable text field. */
  function OrEmpty(v: Option<string>): (s: string)
    ensures v.None? ==> s == ""
    ensures v.Some? ==> s == v.value
  {
    match v
    case None => ""
    case Some(t) => t
  }

  /** `__str__`: the name and the business name around " - ". */
  function Str(card: VisitingCard): (s: string)
    ensures |s| == |card.name| + 3 + |card.businessName|
    ensures s[..|card.name|] == card.name
    ensures s[|card.name|..|card.name| + 3] == " - "
    ensures s[|card.name| + 3..] == card.businessName
  {
    card.name + " - " + card.businessName
  }

  /** `to_dict`, as its ordered (label, text) items. */
  function ToDict(card: VisitingCard, format: Instant -> string): (d: seq<(string, string)>)
    ensures |d| == |SheetsHelper.SheetColumns|
    ensures forall i :: 0 <= i < |d| ==> d[i].0 == SheetsHelper.SheetColumns[i]
  {
    [ ("Name", card.name),
      ("Business Name", card.businessName),
      ("Job Title", OrEmpty(card.jobTitle)),
      ("Contact Number", card.contactNumber),
      ("Email", OrEmpty(card.email)),
      ("Website", OrEmpty(card.website)),
      ("Address", OrEmpty(card.address)),
      ("Created At", format(card.createdAt)) ]
  }

  /** The card as the extractor's dict: the same fields under the snake_case keys, None as null. */
  function AsCardDict(card: VisitingCard, format: Instant -> string): map<string, Json>
  {
    map[
      "name" := JString(card.name),
      "business_name" := JString(card.businessName),
      "job_title" := NullableText(card.jobTitle),
      "contact_number" := JString(card.contactNumber),
      "email" := NullableText(card.email),
      "website" := NullableText(card.website),
      "address" := NullableText(card.address),
      "created_at" := JString(format(card.createdAt))]
  }

  function NullableText(v: Option<string>): Json
  {
    match v
    case None => JNull
    case Some(t) => JString(t)
  }

  /** A cell's text, reading null as ''. */
  function CellText(c: Json): string
  {
    match c
    case JString(s) => s
    case _ => ""
  }

  /**
   * `to_dict` agrees, column by column, with the sheet row built for the
   * same card: required fields are copied, a None optional field becomes
   * '', and Created At is the formatted timestamp.
   */
  lemma ToDictMatchesSheetRow(card: VisitingCard, format: Instant -> string)
    ensures forall i :: 0 <= i < SheetsHelper.Width ==>
      ToDict(card, format)[i].1 == CellText(SheetsHelper.BuildRow(AsCardDict(card, format))[i])
  {
    var row := SheetsHelper.BuildRow(AsCardDict(card, format));
    var d := ToDict(card, format);
    forall i | 0 <= i < SheetsHelper.Width
      ensures d[i].1 == CellText(row[i])
    {
      assert row[i] == AsCardDict(card, format)[SheetsHelper.CardKeys[i]];
    }
  }

  /** The labels of `to_dict` are eight distinct keys, equal to the sheet columns. */
  lemma ToDictKeys(card: VisitingCard, format: Instant -> string)
    ensures forall i, j :: 0 <= i < j < |ToDict(card, format)| ==> ToDict(card, format)[i].0 != ToDict(card, format)[j].0
    ensures (set i | 0 <= i < |ToDict(card, format)| :: ToDict(card, format)[i].0)
            == set c | c in SheetsHelper.SheetColumns
  {
    SheetsHelper.HeaderDistinct();
    var d := ToDict(card, format);
    forall i, j | 0 <= i < j < |d| ensures d[i].0 != d[j].0 {
      assert SheetsHelper.HeaderRow()[i] != SheetsHelper.HeaderRow()[j];
    }
  }
}

=== FILE: sheets_helper.dfy ===
/**
 * src/cards/utils/sheets_helper.py: the eight sheet columns, the row built
 * for a card, the header initialisation and the read-back of rows as
 * dictionaries. The Google spreadsheet is an in-memory grid of cells, each
 * cell holding the value that was sent for it; whether the remote call
 * succeeds is a parameter.
 */
module SheetsHelper {
  import opened Wrappers
  import opened JsonValue

  const SheetColumns: seq<string> :=
    ["Name", "Business Name", "Job Title", "Contact Number", "Email", "Website", "Address", "Created At"]

  /** The card key read for each column, in column order. */
  const CardKeys: seq<string> :=
    ["name", "business_name", "job_title", "contact_number", "email", "website", "address", "created_at"]

  /** Columns A to H. */
  const Width := 8

  type Row = seq<Json>
  type Record = map<Json, Json>

  /** The header labels as the cells `initialize_sheet` writes. */
  function HeaderRow(): (h: Row)
    ensures |h| == Width
    ensures forall i :: 0 <= i < Width ==> h[i] == JString(SheetColumns[i])
  {
    seq(Width, i requires 0 <= i < Width => JString(SheetColumns[i]))
  }

  /** `row_data` of `append_to_sheet`: one cell per column, '' for an absent key. */
  function BuildRow(card: map<string, Json>): (row: Row)
    ensures |row| == Width
    ensures forall i :: 0 <= i < Width ==> row[i] == GetOr(card, CardKeys[i], JString(""))
  {
    [ GetOr(card, "name", JString("")),
      GetOr(card, "business_name", JString("")),
      GetOr(card, "job_title", JString("")),
      GetOr(card, "contact_number", JString("")),
      GetOr(card, "email", JString("")),
      GetOr(card, "website", JString("")),
      GetOr(card, "address", JString("")),
      GetOr(card, "created_at", JString("")) ]
  }

  predicate Blank(c: Json)
  {
    c == JString("") || c == JNull
  }

  /** The A1:H1 read comes back without a 'values' entry. */
  predicate HeaderRangeEmpty(grid: seq<Row>)
  {
    grid == [] || forall k :: 0 <= k < |grid[0]| && k < Width ==> Blank(grid[0][k])
  }

  /** An empty sheet or an empty first row has no headers; a filled A1 means it has; cells past H1 are not read. */
  lemma HeaderRangeFacts(grid: seq<Row>)
    ensures grid == [] || grid[0] == [] ==> HeaderRangeEmpty(grid)
    ensures grid != [] && |grid[0]| > 0 && !Blank(grid[0][0]) ==> !HeaderRangeEmpty(grid)
    ensures grid != [] ==> (HeaderRangeEmpty(grid) <==> HeaderRangeEmpty([Take(grid[0])] + grid[1..]))
  {
    if grid != [] {
      var cut := [Take(grid[0])] + grid[1..];
      assert cut[0] == Take(grid[0]);
      assert forall k :: 0 <= k < |grid[0]| && k < Width ==> k < |cut[0]| && cut[0][k] == grid[0][k];
    }
  }

  /** The first eight cells of a row. */
  function Take(row: Row): (t: Row)
    ensures |t| == if |row| < Width then |row| else Width
    ensures t == row[..|t|]
  {
    if |row| <= Width then row else row[..Width]
  }

  /**
   * The effect of `initialize_sheet`: the labels are written over A1:H1
   * only when that range is empty; any other first row is left as it is.
   */
  function EnsureHeader(grid: seq<Row>): (g: seq<Row>)
    ensures !HeaderRangeEmpty(g)
    ensures !HeaderRangeEmpty(grid) ==> g == grid
    ensures HeaderRangeEmpty(grid) ==>
      && |g| == (if grid == [] then 1 else |grid|)
      && Take(g[0]) == HeaderRow()
      && g[1..] == (if grid == [] then [] else grid[1..])
  {
    if !HeaderRangeEmpty(grid) then grid
    else
      assert !Blank(HeaderRow()[0]);
      if grid == [] then [HeaderRow()]
      else
        var first := HeaderRow() + (if |grid[0]| > Width then grid[0][Width..] else []);
        assert first[..Width] == HeaderRow();
        assert Take(first) == HeaderRow();
        var g := [first] + grid[1..];
        assert g[0] == first && 0 < |g[0]| && !Blank(g[0][0]);
        g
  }

  /** Initialising twice changes nothing more than initialising once. */
  lemma EnsureHeaderIdempotent(grid: seq<Row>)
    ensures EnsureHeader(EnsureHeader(grid)) == EnsureHeader(grid)
  {
  }

  /** What the A:H read returns: every row cut to columns A to H. */
  function ReadRange(grid: seq<Row>): (values: seq<Row>)
    ensures |values| == |grid|
    ensures forall i :: 0 <= i < |grid| ==> values[i] == Take(grid[i])
  {
    seq(|grid|, i requires 0 <= i < |grid| => Take(grid[i]))
  }

  /** `row + [''] * (n - len(row))`. */
  function Pad(row: Row, n: nat): (p: Row)
    ensures |p| == if |row| < n then n else |row|
    ensures p[..|row|] == row
    ensures forall k :: |row| <= k < |p| ==> p[k] == JString("")
  {
    if |row| < n then row + seq(n - |row|, _ => JString("")) else row
  }

  function Min(a: nat, b: nat): nat { if a < b then a else b }

  /** `dict(zip(keys, vals))`: pairs up to the shorter list; a repeated key keeps its last value. */
  function ZipDict(keys: Row, vals: Row): (d: Record)
    ensures d.Keys == set k | 0 <= k < Min(|keys|, |vals|) :: keys[k]
    decreases |keys|
  {
    var n := Min(|keys|, |vals|);
    if n == 0 then map[]
    else
      var d := ZipDict(keys[..n - 1], vals[..n - 1])[keys[n - 1] := vals[n - 1]];
      assert d.Keys == set k | 0 <= k < n :: keys[k] by {
        assert forall k :: 0 <= k < n - 1 ==> keys[..n - 1][k] == keys[k];
      }
      d
  }

  predicate Distinct(keys: Row)
  {
    forall i, j :: 0 <= i < j < |keys| ==> keys[i] != keys[j]
  }

  /** With distinct keys, each key maps to the value at its own position. */
  lemma {:induction false} ZipDictAt(keys: Row, vals: Row, i: nat)
    requires Distinct(keys)
    requires i < |keys| && i < |vals|
    ensures keys[i] in ZipDict(keys, vals) && ZipDict(keys, vals)[keys[i]] == vals[i]
    decreases |keys|
  {
    var n := Min(|keys|, |vals|);
    if i < n - 1 {
      ZipDictAt(keys[..n - 1], vals[..n - 1], i);
    }
  }

  /** `get_sheet_data`: the rows after the first, each keyed by the first row's cells. */
  function Records(grid: seq<Row>): (data: seq<Record>)
    ensures grid == [] ==> data == []
    ensures grid != [] ==> |data| == |grid| - 1
  {
    var values := ReadRange(grid);
    if values == [] then []
    else seq(|values| - 1, i requires 0 <= i < |values| - 1 =>
           ZipDict(values[0], Pad(values[i + 1], |values[0]|)))
  }

  /** Record i is the header zipped with row i, read as A:H and padded to the header's width. */
  lemma RecordIs(grid: seq<Row>, i: nat)
    requires 0 < i < |grid|
    ensures Records(grid)[i - 1] == ZipDict(Take(grid[0]), Pad(Take(grid[i]), |Take(grid[0])|))
  {
    var values := ReadRange(grid);
    assert values[0] == Take(grid[0]) && values[i] == Take(grid[i]);
  }

  /**
   * Each record maps the k-th header cell to the row's k-th cell, or to ''
   * where the row is short.
   */
  lemma RecordAt(grid: seq<Row>, i: nat, k: nat)
    requires 0 < i < |grid|
    requires Distinct(Take(grid[0])) && k < |Take(grid[0])|
    ensures Take(grid[0])[k] in Records(grid)[i - 1]
    ensures Records(grid)[i - 1][Take(grid[0])[k]] ==
      if k < |Take(grid[i])| then Take(grid[i])[k] else JString("")
  {
    var h := Take(grid[0]);
    var row := Take(grid[i]);
    var p := Pad(row, |h|);
    RecordIs(grid, i);
    ZipDictAt(h, p, k);
    if k < |row| {
      assert p[..|row|][k] == p[k];
    }
  }

  /** A record's keys are exactly the header cells: cells past the header width are dropped. */
  lemma RecordKeys(grid: seq<Row>, i: nat)
    requires 0 < i < |grid|
    ensures Records(grid)[i - 1].Keys == set j | 0 <= j < |Take(grid[0])| :: Take(grid[0])[j]
  {
    var h := Take(grid[0]);
    RecordIs(grid, i);
    assert Min(|h|, |Pad(Take(grid[i]), |h|)|) == |h|;
  }

  lemma HeaderDistinct()
    ensures Distinct(HeaderRow())
  {
    var h := HeaderRow();
    forall i, j | 0 <= i < j < |h| ensures h[i] != h[j] {
      assert SheetColumns[i] != SheetColumns[j];
    }
  }

  /**
   * Round trip: under the canonical header, the row appended for a card
   * reads back as the last record, mapping each column label to the card's
   * field, or to '' where the card has no such key; earlier records stay.
   */
  lemma AppendedRowReadsBack(grid: seq<Row>, card: map<string, Json>)
    requires grid != [] && Take(grid[0]) == HeaderRow()
    ensures |Records(grid + [BuildRow(card)])| == |grid|
    ensures Records(grid + [BuildRow(card)])[..|grid| - 1] == Records(grid)
    ensures forall c :: 0 <= c < Width ==>
      && JString(SheetColumns[c]) in Records(grid + [BuildRow(card)])[|grid| - 1]
      && Records(grid + [BuildRow(card)])[|grid| - 1][JString(SheetColumns[c])]
         == GetOr(card, CardKeys[c], JString(""))
  {
    var g := grid + [BuildRow(card)];
    HeaderDistinct();
    assert g[0] == grid[0];
    assert Take(g[|grid|]) == BuildRow(card);
    forall c | 0 <= c < Width
      ensures JString(SheetColumns[c]) in Records(g)[|grid| - 1]
      ensures Records(g)[|grid| - 1][JString(SheetColumns[c])] == GetOr(card, CardKeys[c], JString(""))
    {
      RecordAt(g, |grid|, c);
    }
    forall i | 0 <= i < |grid| - 1
      ensures Records(g)[i] == Records(grid)[i]
    {
      assert g[i + 1] == grid[i + 1];
    }
  }

  /** The spreadsheet, as the three operations see it. */
  class Spreadsheet {
    var grid: seq<Row>

    constructor (initial: seq<Row>)
      ensures grid == initial
    {
      grid := initial;
    }

    /** `initialize_sheet`; `available` is whether the API calls succeed (otherwise the error is re-raised). */
    method InitializeSheet(available: bool) returns (ok: bool)
      modifies this
      ensures ok == available
      ensures grid == if available then EnsureHeader(old(grid)) else old(grid)
    {
      ok := available;
      if available && HeaderRangeEmpty(grid) {
        grid := EnsureHeader(grid);
      }
    }

    /** `append_to_sheet`: one row after the existing rows, which are left unchanged. */
    method AppendToSheet(card: map<string, Json>, available: bool) returns (ok: bool)
      modifies this
      ensures ok == available
      ensures grid == if available then old(grid) + [BuildRow(card)] else old(grid)
    {
      ok := available;
      if available {
        grid := grid + [BuildRow(card)];
      }
    }

    /** `get_sheet_data`, which builds its list by appending one dict per row. */
    method GetSheetData(available: bool) returns (data: Option<seq<Record>>)
      ensures available <==> data.Some?
      ensures data.Some? ==> data.value == Records(grid)
    {
      if !available {
        return None;
      }
      var values := ReadRange(grid);
      if values == [] {
        return Some([]);
      }
      var headers := values[0];
      var rows: seq<Record> := [];
      var i := 1;
      while i < |values|
        invariant 1 <= i <= |values|
        invariant |rows| == i - 1
        invariant forall k :: 0 <= k < i - 1 ==> rows[k] == Records(grid)[k]
      {
        var padded := Pad(values[i], |headers|);
        RecordIs(grid, i);
        rows := rows + [ZipDict(headers, padded)];
        i := i + 1;
      }
      return Some(rows);
    }
  }
}

=== FILE: strings.dfy ===
/**
 * The Python `str` operations the response cleaners use: `startswith`,
 * `find` and `rfind` of a character, `rfind` of a substring, slicing with
 * Python's index normalisation, and `strip()` without arguments.
 */
module Strings {

  predicate StartsWith(s: string, prefix: string)
  {
    |prefix| <= |s| && s[..|prefix|] == prefix
  }

  /** `t` occurs in `s` at index `i`. */
  predicate OccursAt(s: string, t: string, i: int)
  {
    0 <= i && i + |t| <= |s| && s[i..i + |t|] == t
  }

  /** `s.startswith(prefix)` is an occurrence at index 0, and an empty prefix always matches. */
  lemma StartsWithOccurs(s: string, prefix: string)
    ensures StartsWith(s, prefix) <==> OccursAt(s, prefix, 0)
    ensures StartsWith(s, prefix) ==> forall k :: 0 <= k < |prefix| ==> s[k] == prefix[k]
    ensures StartsWith(s, "")
  {
  }

  /** `s.find(c)`: the first index of `c`, or -1. */
  function Find(s: string, c: char): (r: int)
    ensures -1 <= r < |s|
    ensures r == -1 <==> c !in s
    ensures r >= 0 ==> s[r] == c
    ensures forall k :: 0 <= k < r ==> s[k] != c
  {
    if |s| == 0 then -1
    else if s[0] == c then 0
    else
      var k := Find(s[1..], c);
      if k == -1 then -1 else k + 1
  }

  /** `s.rfind(c)`: the last index of `c`, or -1. */
  function RFind(s: string, c: char): (r: int)
    ensures -1 <= r < |s|
    ensures r == -1 <==> c !in s
    ensures r >= 0 ==> s[r] == c
    ensures forall k :: r < k < |s| ==> s[k] != c
  {
    if |s| == 0 then -1
    else if s[|s| - 1] == c then |s| - 1
    else
      var k := RFind(s[..|s| - 1], c);
      assert s == s[..|s| - 1] + [s[|s| - 1]];
      k
  }

  /** The largest `i <= from` at which `t` occurs in `s`, or -1. */
  function RFindFrom(s: string, t: string, from: int): (r: int)
    requires from <= |s| - |t|
    ensures r == -1 || 0 <= r <= from
    ensures r >= 0 ==> OccursAt(s, t, r)
    ensures forall j {:trigger OccursAt(s, t, j)} :: r < j <= from ==> !OccursAt(s, t, j)
    decreases from + 1
  {
    if from < 0 then -1
    else if s[from..from + |t|] == t then from
    else RFindFrom(s, t, from - 1)
  }

  /** `s.rfind(t)`: the last index at which `t` occurs in `s`, or -1. */
  function RFindSub(s: string, t: string): (r: int)
    ensures r == -1 || 0 <= r <= |s| - |t|
    ensures r >= 0 ==> OccursAt(s, t, r)
    ensures forall j {:trigger OccursAt(s, t, j)} :: r < j ==> !OccursAt(s, t, j)
  {
    RFindFrom(s, t, |s| - |t|)
  }

  /** `Find` is pinned down by the first occurrence. */
  lemma FindIs(s: string, c: char, n: int)
    requires (n == -1 && c !in s) || (0 <= n < |s| && s[n] == c && c !in s[..n])
    ensures Find(s, c) == n
  {
    if n >= 0 {
      assert forall k :: 0 <= k < n ==> s[..n][k] == s[k];
    }
  }

  /** `RFindSub` is pinned down by the last occurrence. */
  lemma RFindSubIs(s: string, t: string, e: nat)
    requires OccursAt(s, t, e) && forall j :: e < j ==> !OccursAt(s, t, j)
    ensures RFindSub(s, t) == e
  {
  }

  /** Python's clamping of a slice bound against a length `n`. */
  function SliceBound(i: int, n: nat): (b: nat)
    ensures b <= n
    ensures 0 <= i <= n ==> b == i
  {
    if i < 0 then (if i + n < 0 then 0 else i + n)
    else if i > n then n
    else i
  }

  /** `s[a:b]`. */
  function Slice(s: string, a: int, b: int): (r: string)
    ensures 0 <= a <= b <= |s| ==> r == s[a..b]
    ensures 0 <= b <= a <= |s| ==> r == ""
  {
    var lo, hi := SliceBound(a, |s|), SliceBound(b, |s|);
    if lo < hi then s[lo..hi] else ""
  }

  /** The characters for which Python's `str.isspace()` holds. */
  predicate IsSpace(c: char)
  {
    || c == ' ' || c == '\t' || c == '\n' || c == '\r' || c == '\U{000B}' || c == '\U{000C}'
    || ('\U{001C}' <= c <= '\U{001F}') || c == '\U{0085}' || c == '\U{00A0}' || c == '\U{1680}'
    || ('\U{2000}' <= c <= '\U{200A}') || c == '\U{2028}' || c == '\U{2029}' || c == '\U{202F}'
    || c == '\U{205F}' || c == '\U{3000}'
  }

  predicate AllSpace(s: string)
  {
    forall k :: 0 <= k < |s| ==> IsSpace(s[k])
  }

  /** The end of the run of whitespace that starts at `i`. */
  function LeadingEnd(s: string, i: nat): (n: nat)
    requires i <= |s|
    ensures i <= n <= |s|
    ensures forall k :: i <= k < n ==> IsSpace(s[k])
    ensures n < |s| ==> !IsSpace(s[n])
    decreases |s| - i
  {
    if i < |s| && IsSpace(s[i]) then LeadingEnd(s, i + 1) else i
  }

  /** The start of the run of whitespace that ends at `j`, going no lower than `lo`. */
  function TrailingStart(s: string, lo: nat, j: nat): (n: nat)
    requires lo <= j <= |s|
    ensures lo <= n <= j
    ensures forall k :: n <= k < j ==> IsSpace(s[k])
    ensures lo < n ==> !IsSpace(s[n - 1])
    decreases j - lo
  {
    if lo < j && IsSpace(s[j - 1]) then TrailingStart(s, lo, j - 1) else j
  }

  /** `s.strip()`: drops the leading and the trailing whitespace. */
  function Strip(s: string): (r: string)
    ensures |r| <= |s|
    ensures r != "" ==> !IsSpace(r[0]) && !IsSpace(r[|r| - 1])
  {
    var i := LeadingEnd(s, 0);
    s[i..TrailingStart(s, i, |s|)]
  }

  /** A prefix that neither starts nor ends with whitespace survives `strip()`. */
  lemma StripKeepsPrefix(s: string, q: string)
    requires StartsWith(s, q) && q != ""
    requires !IsSpace(q[0]) && !IsSpace(q[|q| - 1])
    ensures StartsWith(Strip(s), q)
  {
    assert s[0] == q[0] && s[|q| - 1] == q[|q| - 1];
    var i := LeadingEnd(s, 0);
    assert i == 0;
    var j := TrailingStart(s, 0, |s|);
    assert |q| <= j;
    assert Strip(s)[..|q|] == s[..|q|];
  }

  /** Whatever surrounds a text without outer whitespace, `strip()` returns that text. */
  lemma {:induction false} StripSurrounded(w1: string, p: string, w2: string)
    requires AllSpace(w1) && AllSpace(w2)
    requires p != "" ==> !IsSpace(p[0]) && !IsSpace(p[|p| - 1])
    ensures Strip(w1 + p + w2) == p
  {
    var s := w1 + p + w2;
    var i := LeadingEnd(s, 0);
    assert forall k :: 0 <= k < |w1| ==> s[k] == w1[k];
    assert forall k :: 0 <= k < |w2| ==> s[|w1| + |p| + k] == w2[k];
    if p == "" {
      assert i == |s|;
    } else {
      assert s[|w1|] == p[0];
      assert i == |w1|;
      var j := TrailingStart(s, i, |s|);
      assert s[|w1| + |p| - 1] == p[|p| - 1];
      assert j == |w1| + |p|;
      assert s[i..j] == p;
    }
  }
}

=== FILE: utils_openai_helper.dfy ===
/**
 * `extract_card_details` of src/utils/openai_helper.py: an empty reply is
 * rejected, a fenced reply is cut from the character after its first
 * newline up to the last fence and stripped, the text is handed to
 * `json.loads` (the parameter `parse`), every card is checked for the
 * presence of the three required keys, and a single dict is wrapped in a
 * list.
 */
module UtilsOpenAiHelper {
  import opened Wrappers
  import opened JsonValue
  import opened Strings

  const Fence := "```"
  const Required: seq<string> := ["name", "business_name", "contact_number"]

  datatype ExtractError =
    | EmptyResponse                // ValueError("Empty response received")
    | ParseFailure(detail: string) // a JSONDecodeError, re-raised as ValueError
    | TypeFailure(text: string)    // an AttributeError or TypeError from the validation loop

  const ParsePrefix := "Failed to parse API response: "

  /** `str(e)` of each exception. */
  function Message(e: ExtractError): (m: string)
    ensures e.EmptyResponse? ==> m == "Empty response received"
    ensures e.ParseFailure? ==> StartsWith(m, ParsePrefix) && m[|ParsePrefix|..] == e.detail
    ensures e.TypeFailure? ==> m == e.text
  {
    match e
    case EmptyResponse => "Empty response received"
    case ParseFailure(detail) => ParsePrefix + detail
    case TypeFailure(text) => text
  }

  /** The returned value and, per checked card, the `missing_fields` list that is logged. */
  datatype Extraction = Extraction(cards: Json, missing: seq<seq<string>>)

  /** `cleaned_response`, the text handed to `json.loads`. */
  function CleanResponse(s: string): (r: string)
    ensures !StartsWith(s, Fence) ==> r == s
    ensures StartsWith(s, Fence) ==> |r| <= |s| - |Fence|
  {
    if StartsWith(s, Fence) then
      assert OccursAt(s, Fence, 0);
      Strip(Slice(s, Find(s, '\n') + 1, RFindSub(s, Fence)))
    else s
  }

  /** The required keys, in order, for which `has` fails. */
  function MissingWhere(has: string -> bool): (m: seq<string>)
    ensures forall f :: f in m <==> f in Required && !has(f)
  {
    (if !has("name") then ["name"] else [])
    + (if !has("business_name") then ["business_name"] else [])
    + (if !has("contact_number") then ["contact_number"] else [])
  }

  /** The required keys a dict lacks (`field not in card`). */
  function MissingKeys(card: map<string, Json>): (m: seq<string>)
    ensures forall f :: f in m <==> f in Required && f !in card
  {
    MissingWhere(f => f in card)
  }

  /**
   * One round of the validation loop. `field not in card` also runs on a
   * list (element test) and on a string (substring test); when something
   * is then missing, the warning's `card.get` fails on that non-dict. Any
   * other value makes `in` itself fail.
   */
  function CheckCard(card: Json): (r: Result<seq<string>, ExtractError>)
    ensures card.JObject? ==> r == Ok(MissingKeys(card.fields))
    ensures !(card.JObject? || card.JArray? || card.JString?) ==>
      r == Err(TypeFailure("argument of type '" + TypeName(card) + "' is not iterable"))
  {
    match card
    case JObject(fields) => Ok(MissingKeys(fields))
    case JArray(xs) =>
      if MissingWhere(f => JString(f) in xs) == [] then Ok([])
      else Err(TypeFailure("'list' object has no attribute 'get'"))
    case JString(t) =>
      if MissingWhere(f => RFindSub(t, f) != -1) == [] then Ok([])
      else Err(TypeFailure("'str' object has no attribute 'get'"))
    case _ => Err(TypeFailure("argument of type '" + TypeName(card) + "' is not iterable"))
  }

  /** A list card passes exactly when it holds the three key names as elements. */
  lemma ListCardChecked(xs: seq<Json>)
    ensures CheckCard(JArray(xs)).Ok? <==> forall f :: f in Required ==> JString(f) in xs
    ensures CheckCard(JArray(xs)).Err? ==> CheckCard(JArray(xs)).error == TypeFailure("'list' object has no attribute 'get'")
  {
    var m := MissingWhere(f => JString(f) in xs);
    if m != [] {
      assert m[0] in m;
    }
  }

  /** A string card passes exactly when it holds the three key names as substrings. */
  lemma StringCardChecked(t: string)
    ensures CheckCard(JString(t)).Ok? <==> forall f :: f in Required ==> RFindSub(t, f) != -1
    ensures CheckCard(JString(t)).Err? ==> CheckCard(JString(t)).error == TypeFailure("'str' object has no attribute 'get'")
  {
    var m := MissingWhere(f => RFindSub(t, f) != -1);
    if m != [] {
      assert m[0] in m;
    }
  }

  function CheckAll(cards: seq<Json>): (r: Result<seq<seq<string>>, ExtractError>)
    ensures r.Ok? ==> |r.value| == |cards|
    ensures r.Ok? ==> forall k :: 0 <= k < |cards| ==> CheckCard(cards[k]) == Ok(r.value[k])
    ensures r.Err? <==> exists k :: 0 <= k < |cards| && CheckCard(cards[k]).Err?
    ensures r.Err? ==> exists k :: 0 <= k < |cards| && CheckCard(cards[k]) == Err(r.error)
                        && forall j :: 0 <= j < k ==> CheckCard(cards[j]).Ok?
  {
    if cards == [] then Ok([])
    else
      match CheckCard(cards[0])
      case Err(e) => Err(e)
      case Ok(m) =>
        match CheckAll(cards[1..])
        case Err(e) =>
          var k :| 0 <= k < |cards[1..]| && CheckCard(cards[1..][k]) == Err(e)
                   && forall j :: 0 <= j < k ==> CheckCard(cards[1..][j]).Ok?;
          assert CheckCard(cards[k + 1]) == Err(e);
          assert forall j :: 0 <= j < k + 1 ==> CheckCard(cards[j]).Ok? by {
            assert forall j :: 1 <= j < k + 1 ==> cards[j] == cards[1..][j - 1];
          }
          Err(e)
        case Ok(rest) => Ok([m] + rest)
  }

  /** `extract_card_details(response)`. */
  function ExtractCardDetails(parse: string -> ParseResult, response: string): (r: Result<Extraction, ExtractError>)
    ensures response == "" ==> r == Err(EmptyResponse)
    ensures r.Ok? ==> r.value.cards.JArray? || r.value.cards.JString?
    ensures response != "" && parse(CleanResponse(response)).DecodeError? ==>
      r == Err(ParseFailure(parse(CleanResponse(response)).msg))
    ensures r.Ok? ==> parse(CleanResponse(response)).Parsed?
    ensures r.Ok? && r.value.cards.JString? ==> parse(CleanResponse(response)) == Parsed(r.value.cards)
    ensures r.Ok? && parse(CleanResponse(response)).Parsed? && parse(CleanResponse(response)).value.JArray? ==>
      r.value.cards == parse(CleanResponse(response)).value
  {
    if response == "" then Err(EmptyResponse)
    else
      match parse(CleanResponse(response))
      case DecodeError(msg) => Err(ParseFailure(msg))
      case Parsed(v) =>
        var checked := if v.JArray? then v.items else [v];
        match CheckAll(checked)
        case Err(e) => Err(e)
        case Ok(missing) => Ok(Extraction(if v.JObject? then JArray([v]) else v, missing))
  }

  /** The reply as `analyze_image` hands it over: `None` is falsy, so it counts as empty. */
  function ExtractReply(parse: string -> ParseResult, reply: Option<string>): (r: Result<Extraction, ExtractError>)
    ensures reply.None? ==> r == Err(EmptyResponse)
    ensures reply.Some? ==> r == ExtractCardDetails(parse, reply.value)
  {
    match reply
    case None => Err(EmptyResponse)
    case Some(s) => ExtractCardDetails(parse, s)
  }

  // ---------------------------------------------------------------------
  // Properties of the cleaning step

  /**
   * A fenced reply is cut from just after its first newline (from the
   * start when it has none) up to the last fence, then stripped.
   */
  lemma FencedSpan(s: string, n: int, e: nat)
    requires StartsWith(s, Fence)
    requires (n == -1 && '\n' !in s) || (0 <= n < |s| && s[n] == '\n' && '\n' !in s[..n])
    requires OccursAt(s, Fence, e) && forall j :: e < j ==> !OccursAt(s, Fence, j)
    ensures CleanResponse(s) == Strip(if n + 1 <= e then s[n + 1..e] else "")
  {
    FindIs(s, '\n', n);
    RFindSubIs(s, Fence, e);
  }

  /**
   * Without a newline the cut starts at index 0, so a one-line fenced reply
   * keeps its opening fence and only the closing one goes.
   */
  lemma {:induction false} OneLineKeepsOpeningFence(p: string)
    requires '\n' !in p
    ensures CleanResponse(Fence + p + Fence) == Strip(Fence + p)
    ensures StartsWith(CleanResponse(Fence + p + Fence), Fence)
  {
    var s := Fence + p + Fence;
    var e := |Fence + p|;
    assert s[..|Fence|] == Fence;
    assert s[..e] == Fence + p;
    assert '\n' !in s by {
      assert forall k :: 0 <= k < |s| ==> s[k] in Fence || s[k] in p;
    }
    assert s[e..e + |Fence|] == Fence;
    FencedSpan(s, -1, e);
    StripKeepsPrefix(Fence + p, Fence);
  }

  /** Fence round trip: the payload between the tag line and the closing fence comes back stripped. */
  lemma {:induction false} FenceRoundTrip(tag: string, p: string)
    requires '\n' !in tag
    ensures CleanResponse(Fence + tag + "\n" + p + Fence) == Strip(p)
  {
    var s := Fence + tag + "\n" + p + Fence;
    var n := |Fence + tag|;
    var e := |s| - |Fence|;
    assert s[..|Fence|] == Fence;
    assert s[n] == '\n';
    assert s[..n] == Fence + tag;
    assert s[e..e + |Fence|] == Fence;
    assert s[n + 1..e] == p;
    FencedSpan(s, n, e);
  }

  /** Fenced or not, a reply that parses to a dict comes back as a one-element list. */
  lemma DictWrapped(parse: string -> ParseResult, s: string, f: map<string, Json>)
    requires s != "" && parse(CleanResponse(s)) == Parsed(JObject(f))
    ensures ExtractCardDetails(parse, s) == Ok(Extraction(JArray([JObject(f)]), [MissingKeys(f)]))
  {
    var cards := [JObject(f)];
    assert CheckCard(cards[0]) == Ok(MissingKeys(f));
    assert cards[1..] == [];
    assert CheckAll(cards[1..]) == Ok([]);
    assert [MissingKeys(f)] + [] == [MissingKeys(f)];
  }

  /** With the opening fence as the only one, nothing is left to parse. */
  lemma LoneFenceCleansToEmpty(s: string)
    requires StartsWith(s, Fence)
    requires forall j :: 0 < j ==> !OccursAt(s, Fence, j)
    ensures CleanResponse(s) == ""
  {
    assert OccursAt(s, Fence, 0);
    var n := Find(s, '\n');
    FencedSpan(s, n, 0);
    assert Strip("") == "";
  }

  // ---------------------------------------------------------------------
  // Properties of the whole extraction

  /** A non-empty reply without a fence reaches `json.loads` unchanged. */
  lemma UnfencedParsedAsIs(parse: string -> ParseResult, s: string)
    requires s != "" && !StartsWith(s, Fence)
    ensures parse(s).DecodeError? ==> ExtractCardDetails(parse, s) == Err(ParseFailure(parse(s).msg))
    ensures parse(s).Parsed? && parse(s).value.JObject? ==>
      ExtractCardDetails(parse, s) == Ok(Extraction(JArray([parse(s).value]), [MissingKeys(parse(s).value.fields)]))
  {
    if parse(s).Parsed? && parse(s).value.JObject? {
      var card := parse(s).value;
      var cards := [card];
      assert cards[1..] == [];
      assert [MissingKeys(card.fields)] + [] == [MissingKeys(card.fields)];
      assert CheckAll(cards) == Ok([MissingKeys(card.fields)]);
    }
  }

  /** A reply whose only fence is the opening one fails to parse, as `json.loads("")` does. */
  lemma LoneFenceFails(parse: string -> ParseResult, s: string)
    requires StartsWith(s, Fence)
    requires forall j :: 0 < j ==> !OccursAt(s, Fence, j)
    requires parse("").DecodeError?
    ensures ExtractCardDetails(parse, s) == Err(ParseFailure(parse("").msg))
  {
    LoneFenceCleansToEmpty(s);
    CleanedEmptyFails(parse, s);
  }

  /** Whenever cleaning leaves nothing, the reply fails as `json.loads("")` does. */
  lemma CleanedEmptyFails(parse: string -> ParseResult, s: string)
    requires s != "" && CleanResponse(s) == ""
    requires parse("").DecodeError?
    ensures ExtractCardDetails(parse, s) == Err(ParseFailure(parse("").msg))
  {
  }

  /**
   * A parsed list of dicts is returned unchanged; each card's missing list
   * holds exactly the required keys it lacks, so a key that is present
   * with an empty value is not flagged.
   */
  lemma ListOfDictsKept(parse: string -> ParseResult, s: string, items: seq<Json>)
    requires s != "" && parse(CleanResponse(s)) == Parsed(JArray(items))
    requires forall k :: 0 <= k < |items| ==> items[k].JObject?
    ensures ExtractCardDetails(parse, s).Ok?
    ensures ExtractCardDetails(parse, s).value.cards == JArray(items)
    ensures forall k :: 0 <= k < |items| ==>
      ExtractCardDetails(parse, s).value.missing[k] == MissingKeys(items[k].fields)
  {
  }

  /**
   * Any parsed list that passes the loop is returned unchanged, whatever its
   * elements: dicts, lists or strings holding the three key names.
   */
  lemma PassingListKept(parse: string -> ParseResult, s: string, items: seq<Json>)
    requires s != "" && parse(CleanResponse(s)) == Parsed(JArray(items))
    ensures ExtractCardDetails(parse, s).Ok? <==> CheckAll(items).Ok?
    ensures CheckAll(items).Ok? ==>
      ExtractCardDetails(parse, s) == Ok(Extraction(JArray(items), CheckAll(items).value))
    ensures CheckAll(items).Err? ==> ExtractCardDetails(parse, s) == Err(CheckAll(items).error)
  {
  }

  /** A dict that has all three keys is not flagged, whatever their values. */
  lemma PresentKeysNotFlagged(card: map<string, Json>)
    requires "name" in card && "business_name" in card && "contact_number" in card
    ensures MissingKeys(card) == []
  {
  }
}

=== FILE: views.dfy ===
/**
 * `analyze_card` of src/cards/views.py. The vision-model call, the clock
 * and the spreadsheet's availability are inputs: `analysis` is what
 * `analyze_image` returned (the message content, possibly `None`) or the
 * text of what it raised, `clock(k)` is the timestamp taken for the k-th
 * card, and `sinkUp(k)` says whether the k-th card's append reaches the
 * sheet.
 */
module Views {
  import opened Wrappers
  import opened JsonValue
  import Extract = CardsOpenAiHelper
  import opened SheetsHelper

  /** An uploaded file; Django's `File` is falsy when its name is empty. */
  datatype UploadedFile = UploadedFile(name: string)

  datatype Request = Request(httpMethod: string, image: Option<UploadedFile>)

  datatype Response = Response(status: nat, body: Json)

  function ErrorBody(message: string): Json
  {
    JObject(map["error" := JString(message)])
  }

  function SuccessBody(data: Json): Json
  {
    JObject(map["success" := JBool(true), "data" := data])
  }

  /** `request.FILES.get('image')` is present and truthy: an upload with an empty name counts as none. */
  predicate HasImage(request: Request)
    ensures request.image.None? ==> !HasImage(request)
    ensures request.image.Some? && request.image.value.name == "" ==> !HasImage(request)
  {
    request.image.Some? && request.image.value.name != ""
  }

  predicate AllObjects(cards: seq<Json>)
  {
    forall k :: 0 <= k < |cards| ==> cards[k].JObject?
  }

  /** The cards after `card['created_at'] = ...`, the k-th stamped with `clock(k)`. */
  function StampAll(cards: seq<Json>, clock: nat -> string): (r: seq<Json>)
    requires AllObjects(cards)
    ensures |r| == |cards| && AllObjects(r)
    ensures forall k :: 0 <= k < |cards| ==> r[k].fields == cards[k].fields["created_at" := JString(clock(k))]
  {
    seq(|cards|, k requires 0 <= k < |cards| => JObject(cards[k].fields["created_at" := JString(clock(k))]))
  }

  /** The rows the sheet gains: one per card whose append succeeded, in card order. */
  function SinkRows(cards: seq<Json>, sinkUp: nat -> bool): (rows: seq<Row>)
    requires AllObjects(cards)
    ensures |rows| <= |cards|
  {
    if cards == [] then []
    else
      var n := |cards| - 1;
      SinkRows(cards[..n], sinkUp) + (if sinkUp(n) then [BuildRow(cards[n].fields)] else [])
  }

  /** `analyze_card(request)`. */
  method AnalyzeCard(request: Request, analysis: Result<Option<string>, string>, parse: string -> ParseResult,
                     sheet: Spreadsheet, clock: nat -> string, sinkUp: nat -> bool)
    returns (response: Response)
    modifies sheet
    ensures request.httpMethod != "POST" ==>
      response == Response(400, ErrorBody("Invalid request method")) && sheet.grid == old(sheet.grid)
    ensures request.httpMethod == "POST" && !HasImage(request) ==>
      response == Response(400, ErrorBody("No image provided")) && sheet.grid == old(sheet.grid)
    ensures request.httpMethod == "POST" && HasImage(request) && analysis.Err? ==>
      response == Response(500, ErrorBody("Image analysis failed: " + analysis.error))
      && sheet.grid == old(sheet.grid)
    ensures request.httpMethod == "POST" && HasImage(request) && analysis.Ok?
            && Extract.ExtractReply(parse, analysis.value).Err? ==>
      response == Response(500, ErrorBody("Failed to extract card details: "
                   + Extract.Message(Extract.ExtractReply(parse, analysis.value).error)))
      && sheet.grid == old(sheet.grid)
    ensures request.httpMethod == "POST" && HasImage(request) && analysis.Ok?
            && Extract.ExtractReply(parse, analysis.value).Ok? ==>
      var cards := Extract.ExtractReply(parse, analysis.value).value.cards;
      if cards.JArray? then
        && AllObjects(cards.items)
        && response == Response(200, SuccessBody(JArray(StampAll(cards.items, clock))))
        && sheet.grid == old(sheet.grid) + SinkRows(StampAll(cards.items, clock), sinkUp)
      else
        response == Response(200, SuccessBody(cards)) && sheet.grid == old(sheet.grid)
  {
    if request.httpMethod != "POST" {
      return Response(400, ErrorBody("Invalid request method"));
    }
    if !HasImage(request) {
      return Response(400, ErrorBody("No image provided"));
    }
    if analysis.Err? {
      return Response(500, ErrorBody("Image analysis failed: " + analysis.error));
    }
    var extracted := Extract.ExtractReply(parse, analysis.value);
    if extracted.Err? {
      return Response(500, ErrorBody("Failed to extract card details: " + Extract.Message(extracted.error)));
    }
    var details := extracted.value.cards;
    if !details.JArray? {
      // the one non-list result, the JSON string "", iterates zero times
      return Response(200, SuccessBody(details));
    }
    var cards := StampAndAppend(details.items, sheet, clock, sinkUp);
    return Response(200, SuccessBody(JArray(cards)));
  }

  /**
   * The `for card in card_details` loop: each card is stamped, then handed
   * to the sheet; a failed append is swallowed and the loop goes on.
   */
  method StampAndAppend(items: seq<Json>, sheet: Spreadsheet, clock: nat -> string, sinkUp: nat -> bool)
    returns (cards: seq<Json>)
    requires AllObjects(items)
    modifies sheet
    ensures cards == StampAll(items, clock)
    ensures sheet.grid == old(sheet.grid) + SinkRows(cards, sinkUp)
  {
    cards := items;
    ghost var stamped := StampAll(items, clock);
    var i := 0;
    while i < |cards|
      invariant 0 <= i <= |cards| == |items|
      invariant forall k :: 0 <= k < i ==> cards[k] == stamped[k]
      invariant forall k :: i <= k < |cards| ==> cards[k] == items[k]
      invariant sheet.grid == old(sheet.grid) + SinkRows(stamped[..i], sinkUp)
    {
      cards := cards[i := JObject(cards[i].fields["created_at" := JString(clock(i))])];
      var appended := sheet.AppendToSheet(cards[i].fields, sinkUp(i));
      assert stamped[..i + 1][..i] == stamped[..i];
      i := i + 1;
    }
    assert cards == stamped;
    assert stamped[..i] == stamped;
  }

  // ---------------------------------------------------------------------
  // Properties of the stamping and the sink loop

  /**
   * Every row the sheet gains is the row of one stamped card whose append
   * succeeded, so it carries that card's timestamp in its last column.
   */
  lemma {:induction false} SinkRowsFromCards(cards: seq<Json>, sinkUp: nat -> bool, r: nat)
    requires AllObjects(cards) && r < |SinkRows(cards, sinkUp)|
    ensures exists k :: 0 <= k < |cards| && sinkUp(k) && SinkRows(cards, sinkUp)[r] == BuildRow(cards[k].fields)
  {
    var n := |cards| - 1;
    var front := SinkRows(cards[..n], sinkUp);
    if r < |front| {
      SinkRowsFromCards(cards[..n], sinkUp, r);
      var k :| 0 <= k < n && sinkUp(k) && front[r] == BuildRow(cards[..n][k].fields);
      assert cards[..n][k] == cards[k];
    } else {
      assert SinkRows(cards, sinkUp)[r] == BuildRow(cards[n].fields);
    }
  }

  /** When every append succeeds, the sheet gains exactly the stamped cards' rows, in order. */
  lemma {:induction false} SinkRowsAllUp(cards: seq<Json>, sinkUp: nat -> bool)
    requires AllObjects(cards)
    requires forall k :: 0 <= k < |cards| ==> sinkUp(k)
    ensures |SinkRows(cards, sinkUp)| == |cards|
    ensures forall k :: 0 <= k < |cards| ==> SinkRows(cards, sinkUp)[k] == BuildRow(cards[k].fields)
  {
    if cards != [] {
      var n := |cards| - 1;
      SinkRowsAllUp(cards[..n], sinkUp);
    }
  }

  /** A failed append drops only that card's row; the card stays in the response. */
  lemma {:induction false} SinkRowsCount(cards: seq<Json>, sinkUp: nat -> bool)
    requires AllObjects(cards)
    ensures |SinkRows(cards, sinkUp)| == |set k | 0 <= k < |cards| && sinkUp(k)|
  {
    if cards != [] {
      var n := |cards| - 1;
      SinkRowsCount(cards[..n], sinkUp);
      var before := set k | 0 <= k < n && sinkUp(k);
      var after := set k | 0 <= k < |cards| && sinkUp(k);
      if sinkUp(n) {
        assert after == before + {n};
      } else {
        assert after == before;
      }
    }
  }

  /** The positions below `n` whose append succeeds, in increasing order. */
  function UpIndices(n: nat, sinkUp: nat -> bool): (r: seq<nat>)
    ensures |r| <= n
  {
    if n == 0 then [] else UpIndices(n - 1, sinkUp) + (if sinkUp(n - 1) then [n - 1] else [])
  }

  /** Each successful position appears exactly once, and no other does. */
  lemma {:induction false} UpIndicesExact(n: nat, sinkUp: nat -> bool)
    ensures forall k: nat :: k in UpIndices(n, sinkUp) <==> k < n && sinkUp(k)
    ensures forall j, k :: 0 <= j < k < |UpIndices(n, sinkUp)| ==> UpIndices(n, sinkUp)[j] < UpIndices(n, sinkUp)[k]
  {
    if n > 0 {
      UpIndicesExact(n - 1, sinkUp);
      var prev := UpIndices(n - 1, sinkUp);
      assert forall j :: 0 <= j < |prev| ==> prev[j] in prev;
    }
  }

  /**
   * Whatever appends fail, the sheet gains the rows of exactly the cards
   * whose append succeeded, once each, in card order.
   */
  lemma {:induction false} SinkRowsInOrder(cards: seq<Json>, sinkUp: nat -> bool)
    requires AllObjects(cards)
    ensures |SinkRows(cards, sinkUp)| == |UpIndices(|cards|, sinkUp)|
    ensures forall j :: 0 <= j < |SinkRows(cards, sinkUp)| ==>
      UpIndices(|cards|, sinkUp)[j] < |cards|
      && SinkRows(cards, sinkUp)[j] == BuildRow(cards[UpIndices(|cards|, sinkUp)[j]].fields)
  {
    if cards != [] {
      var n := |cards| - 1;
      SinkRowsInOrder(cards[..n], sinkUp);
      var front := SinkRows(cards[..n], sinkUp);
      var idx := UpIndices(n, sinkUp);
      assert |cards[..n]| == n;
      forall j | 0 <= j < |front|
        ensures SinkRows(cards, sinkUp)[j] == BuildRow(cards[UpIndices(|cards|, sinkUp)[j]].fields)
      {
        assert cards[..n][idx[j]] == cards[idx[j]];
      }
    }
  }

  /** The timestamp each stamped card carries is the one its sheet row carries. */
  lemma StampedRowTimestamp(cards: seq<Json>, clock: nat -> string, k: nat)
    requires AllObjects(cards) && k < |cards|
    ensures "created_at" in StampAll(cards, clock)[k].fields
    ensures BuildRow(StampAll(cards, clock)[k].fields)[7] == JString(clock(k))
    ensures forall c :: 0 <= c < 7 ==>
      BuildRow(StampAll(cards, clock)[k].fields)[c] == BuildRow(cards[k].fields)[c]
  {
    assert CardKeys[7] == "created_at";
    forall c | 0 <= c < 7
      ensures BuildRow(StampAll(cards, clock)[k].fields)[c] == BuildRow(cards[k].fields)[c]
    {
      assert CardKeys[c] != "created_at";
    }
  }
}

=== FILE: wrappers.dfy ===
/** Option and Result, used for Python's None and for raised exceptions. */
module Wrappers {

  datatype Option<+T> = None | Some(value: T)

  /** `Err` stands for an exception raised by the modelled code. */
  datatype Result<+T, +E> = Ok(value: T) | Err(error: E)
}
